=== FILE: README.md ===
# EveryDukan dashboard core in Dafny

This project models the part of the EveryDukan admin dashboard that arranges and edits
the home-page components, together with the routes and serverless functions that list
deals and shops and register users. It states what each part promises and proves it.

- **Components.** The dashboard shows the components (ReusableBanner, BannerCard and
  BrandCard) as a drag-and-drop list. A drop moves one card and renumbers every
  `order` to its position, then sends the `(_id, order)` pairs to the reorder route.
  The route writes the new orders and answers with the collection sorted by order. The
  main theorem is that this listing is exactly the list the dashboard shows after the
  drop, whatever arrangement it showed before (up to the automatic timestamps, which
  are not modelled).
- **Component documents.** New components get the next free order. Saving a component
  goes through the document schema (trimming, URL pattern, kind-dependent payload
  rules). The request-side schema is a union discriminated by `type`. Validation issues
  are rendered into one error message, and the error handler turns that message back
  into a list. Home sections are checked by their schema and a pre-save hook.
- **Forms and previews.** The creation and edit forms add, remove and update banners
  and brands. The edit form reads the `order` field back from text. The preview
  carousel steps two slides at a time, wrapping around the list.
- **Deals.** The deals route parses its query, paginates, checks bodies and applies
  partial updates. The deals table keeps page state behind Previous, Next and the
  page-number buttons.
- **Coupons.** The coupon form falls back to a known category, checks hex colours and
  turns the terms into text and back. The coupons page filters with a search box.
- **Shops.** The shops page splits and joins the comma-separated categories.
- **Serverless functions.** `getdeals` and `getshops` paginate, and `adduser` builds a
  user record.

JavaScript behaviour is written out where it matters:
- the truncating `%`
- `Math.ceil` of a division (with `Infinity` and `NaN`)
- `parseInt`
- truthiness
- `split`/`join`/`trim`

The state that the code changes in place is modelled with classes whose fields the
methods reassign:
- the hook's and the page's `components` list
- the stored collections
- the deals table's page state

## Model

| member | source | states |
|---|---|---|
| ComponentOrdering.MovePermutes | d2cdashboard/hooks/useComponents.ts:44-46 | the two splices keep the length and the multiset of items: a drag neither loses nor duplicates a component |
| ComponentOrdering.RemoveAt | d2cdashboard/hooks/useComponents.ts:44 | `splice(i, 1)`: one element fewer; the elements before `i` stay, the ones after it shift down by one |
| ComponentOrdering.Move | d2cdashboard/hooks/useComponents.ts:44-46 | the length is kept, the dragged item is at the destination, and items before both indices or after both indices stay in place |
| ComponentOrdering.Renumber | d2cdashboard/hooks/useComponents.ts:48-51 | one item per item, each with its position as `order` and every other field as before |
| ComponentOrdering.Payload | d2cdashboard/hooks/useComponents.ts:56-61 | one `(_id, order)` pair per item, in display order, with that item's id and order |
| ComponentOrdering.MoveLandsAtDestination | d2cdashboard/hooks/useComponents.ts:44-46 | the dragged item ends at the destination index, and taking it out again there leaves the other items in their original relative order |
| ComponentOrdering.MoveAt | d2cdashboard/hooks/useComponents.ts:44-46 | where every position of the moved list comes from: items between source and destination shift by one toward the source, all others stay |
| ComponentOrdering.RenumberSpec | d2cdashboard/hooks/useComponents.ts:48-51 | renumbering gives orders 0..n-1 by position and changes no other field of any item |
| ComponentOrdering.PayloadOfRenumbered | d2cdashboard/hooks/useComponents.ts:56-61 | the request body has one `(_id, order)` pair per item, in display order, with the position as the order |
| ComponentOrdering.MoveAndRenumber | d2cdashboard/hooks/useComponents.ts:44-51 | the splice-and-renumber steps give orders equal to positions, put the dragged item at the destination, and equal the moved-then-renumbered list |
| UseComponents.ComponentsHook.ReorderComponents | d2cdashboard/hooks/useComponents.ts:41-61 | a drop without a destination changes nothing and sends nothing; otherwise the state becomes the moved, renumbered list and the request carries its pairs |
| ComponentsPage.ComponentsBoard.HandleDragEnd | d2cdashboard/app/dashboard/components/page.tsx:97-127 | the page's own handler does the same move and renumbering as the hook, as a permutation, and the body lists every component's id with its new order |
| ComponentsApi.Insert | d2cdashboard/app/api/components/route.ts:8 | inserting into a list sorted by order keeps it sorted and adds exactly one element |
| ComponentsApi.SortByOrder | d2cdashboard/app/api/components/route.ts:8 | the listing is sorted by ascending order and is a permutation of the stored documents |
| ComponentsApi.MaxOrder | d2cdashboard/app/api/components/route.ts:25 | the order of the first document in descending order: no document has a larger order, and some document has exactly this order |
| ComponentsApi.NextOrderSpec | d2cdashboard/app/api/components/route.ts:25-26 | a new component gets order 0 in an empty collection, otherwise one more than an existing order, and it is larger than every stored order |
| ComponentsApi.NextOrder | d2cdashboard/app/api/components/route.ts:25-26 | 0 for an empty collection, and in every case larger than every stored order |
| ComponentsApi.ApplyUpdatesAt | d2cdashboard/app/api/components/reorder/route.ts:36-47 | after the updates, each document carries the last order submitted for its id, or keeps its own order when none names it; no other modelled field changes (the automatic `updatedAt` is not modelled) |
| ComponentsApi.ApplyUpdates | d2cdashboard/app/api/components/reorder/route.ts:36-47 | the updates keep every document and its position: same number of documents, each with its own id |
| ComponentsApi.ComponentCollection.Get | d2cdashboard/app/api/components/route.ts:5-17 | a failed database read answers 500 with no listing; otherwise 200 with every stored component, sorted by ascending order, as a permutation of the collection |
| ComponentsApi.ComponentCollection.Post | d2cdashboard/app/api/components/route.ts:19-42 | the body's order is replaced by the next free order; a document the schema saves is appended and answered with 201, a rejected one gives 500 and leaves the collection unchanged |
| ComponentsApi.ComponentCollection.Reorder | d2cdashboard/app/api/components/reorder/route.ts:19-70 | a body without an array gives 400; a refused update aborts the transaction with 500 and no change; otherwise every update is applied and the sorted collection is answered |
| ReorderRoundTrip.ReorderListsWhatWasShown | d2cdashboard/app/api/components/reorder/route.ts:36-53 | if the dashboard shows the stored components in any order and moves one card, applying the sent payload and listing by order gives back exactly the list the dashboard then shows, up to the automatic timestamps, which are not modelled |
| ReorderRoundTrip.SortedUnique | d2cdashboard/app/api/components/reorder/route.ts:50-51 | two lists that are sorted by order, have distinct orders and are permutations of each other are equal, so the sorted listing is determined |
| ReorderRoundTrip.LastOrderForPayload | d2cdashboard/hooks/useComponents.ts:56-61 | for a payload with distinct ids, the order it writes for the id at position i is that item's order |
| ComponentModel.UrlPatternSpec | d2cdashboard/models/Component.ts:39 | the URL pattern accepts exactly texts that start with `http://` or `https://` followed by a character that is not a line terminator |
| ComponentModel.MatchesUrlPattern | d2cdashboard/models/Component.ts:39 | a matching value starts with `http://` or `https://` and has at least one more character |
| ComponentModel.Validates | d2cdashboard/models/Component.ts:91-147 | a validating component has a non-negative order and a title that is not blank once trimmed |
| ComponentModel.Save | d2cdashboard/models/Component.ts:91-147 | a component is saved exactly when every path validates; the stored document has the given id and kind, a non-negative order, a non-empty trimmed title, the given image URL, click URL and button text, and arrays defaulted to []; each stored banner keeps its two URLs, which match the pattern, and has its title trimmed and non-empty; each stored brand keeps its logo and click URLs, which match the pattern, has title and button text trimmed and non-empty, and keeps its tag (trimmed) exactly when one was given |
| ComponentModel.SavedPayloads | d2cdashboard/models/Component.ts:107-143 | a saved ReusableBanner has a banner, a BrandCard a brand, a BannerCard's present URLs match the pattern, and no kind's rule constrains another kind |
| ComponentModel.BannerCardWithoutUrlsIsSaved | d2cdashboard/models/Component.ts:116-133 | because custom validators are not run on undefined paths, a BannerCard without image and click URLs is saved |
| ComponentModel.BlankTitleRejected | d2cdashboard/models/Component.ts:102-106 | a title of only spaces is trimmed to "" and the save is rejected |
| ComponentValidators.ParseComponent | d2cdashboard/lib/componentValidators.ts:22-62 | a parsed component has a known type and a non-empty title, and parsing only drops `order`, which the schema does not name |
| ComponentValidators.ReusableBannerAccepted | d2cdashboard/lib/componentValidators.ts:28-36 | a ReusableBanner body with a non-empty title, at least one valid banner, image and click URLs each absent, empty or a URL, and valid brands if any, is accepted, as given apart from `order` |
| ComponentValidators.BannerCardAccepted | d2cdashboard/lib/componentValidators.ts:38-46 | a BannerCard body with a non-empty title, image and click URLs, a non-empty button text, and valid banners and brands if any, is accepted, as given apart from `order` |
| ComponentValidators.BrandCardAccepted | d2cdashboard/lib/componentValidators.ts:48-56 | a BrandCard body with a non-empty title, at least one valid brand, image and click URLs each absent, empty or a URL, and valid banners if any, is accepted, as given apart from `order` |
| ComponentValidators.ParsedPayloads | d2cdashboard/lib/componentValidators.ts:28-56 | per type: a ReusableBanner has at least one banner; a BannerCard has URLs and a button text; a BrandCard has at least one brand; the other types' URLs are optional; in every type each banner has URL image and click addresses and a non-empty title, and each brand URL logo and click addresses and a non-empty title and button text |
| ComponentValidators.ParsedIsSaved | d2cdashboard/lib/componentValidators.ts:58-62 | if every accepted URL matches the document pattern and titles carry no outer whitespace, a parsed component with a non-negative order is also saved by the document schema |
| ComponentValidators.BlankTitleOnlyPassesHere | d2cdashboard/lib/componentValidators.ts:24 | the schemas differ on a blank title: the request schema accepts `" "`, the document schema rejects it |
| ComponentService.RenderIssue | d2cdashboard/lib/componentService.ts:12-15 | an issue renders as its message, followed by ` (path)` exactly when its joined path is not empty |
| ComponentService.RenderIssues | d2cdashboard/lib/componentService.ts:12-15 | one rendered line per issue, in the issues' order |
| ComponentService.ValidateComponent | d2cdashboard/lib/componentService.ts:6-20 | a parsed body is returned unchanged; schema issues become one Error whose message is the rendered issues joined by line feeds; any other thrown value is rethrown as is |
| ComponentService.HandleApiError | d2cdashboard/lib/componentService.ts:22-50 | document validation errors give 400 with their messages; any other Error gives 400 "Validation Error" with exactly its message split at line feeds; anything else gives 500 "Internal server error" without details |
| ComponentService.IssuesSurviveRoundTrip | d2cdashboard/lib/componentService.ts:12-16 | if no rendered issue contains a line feed, the client receives exactly the rendered issues, in order |
| HomeSection.Save | d2cdashboard/models/Homesection.ts:54-95 | a section is saved exactly when the schema validates and the pre-save check passes; a schema-valid rejection is a pre-save error; `isActive` defaults to true |
| HomeSection.SavedHasPayload | d2cdashboard/models/Homesection.ts:72-95 | a saved section has the payload of its type and a non-empty title of a known type |
| HomeSection.PreSaveIgnoresOtherPayloads | d2cdashboard/models/Homesection.ts:76-92 | each type's pre-save check ignores the payloads of the other types |
| HomeSection.SchemaValid | d2cdashboard/models/Homesection.ts:54-70 | a schema-valid section has a non-empty title, a sort order and one of the three known types |
| HomeSection.PreSaveCheck | d2cdashboard/models/Homesection.ts:72-95 | the hook passes exactly when a BRAND_CARDS section has brands, a BANNER_CARDS section has banners and a SINGLE_BANNER section has its banner; it only fails for those three types |
| Common.Window | d2cdashboard/app/dashboard/components/ComponentForms/ComponentList.tsx:43 | `slice(start, start + width)`: at most `width` consecutive elements from `start`, fewer only at the end of the list |
| Carousel.IndicesInRange | d2cdashboard/app/dashboard/components/ComponentForms/ComponentList.tsx:20-32 | from a non-negative slide with at least three entries, both buttons give an index inside the list |
| Carousel.NextIndex | d2cdashboard/app/dashboard/components/ComponentForms/ComponentList.tsx:30 | from any slide at or after -2 in a non-empty list, the next index is inside the list |
| Carousel.PreviousIndex | d2cdashboard/app/dashboard/components/ComponentForms/ComponentList.tsx:23 | when `slide - 2 + n` is not negative, the previous index is inside the list |
| Carousel.PreviousNextInverse | d2cdashboard/app/dashboard/components/ComponentForms/ComponentList.tsx:20-32 | previous undoes next and next undoes previous, from every valid slide |
| Carousel.HandleNext | d2cdashboard/app/dashboard/components/ComponentForms/ComponentList.tsx:27-32 | only the clicked component's slide changes, to two further on; every other entry is kept |
| Carousel.HandlePrevious | d2cdashboard/app/dashboard/components/ComponentForms/ComponentList.tsx:20-25 | only the clicked component's slide changes, to two back; every other entry is kept |
| Carousel.HandleNextThenPrevious | d2cdashboard/app/dashboard/components/ComponentForms/ComponentList.tsx:20-32 | pressing next and then previous on one component returns it to its slide |
| Carousel.BannerPreview | d2cdashboard/app/dashboard/components/ComponentForms/ComponentList.tsx:43 | at most two consecutive banners from the slide index, exactly two when they exist |
| Carousel.BrandPreview | d2cdashboard/app/dashboard/components/ComponentForms/ComponentList.tsx:84 | at most four consecutive brands from the slide index, exactly four when they exist |
| Carousel.ArrowsShown | d2cdashboard/app/dashboard/components/ComponentForms/ComponentList.tsx:56 | the arrows appear exactly when the kind has a preview and the list is longer than it, which means at least three entries |
| FormEdits.WithoutIndex | d2cdashboard/app/dashboard/components/ComponentForms/ReusableBannerForm.tsx:24 | exactly the entry at the index is dropped; an index outside the list drops nothing |
| FormEdits.SetBannerField | d2cdashboard/app/dashboard/components/ComponentForms/ReusableBannerForm.tsx:30 | the chosen field takes the value and the other fields keep theirs |
| FormEdits.SetBrandField | d2cdashboard/app/dashboard/components/ComponentForms/edit/BrandCardForm.tsx:36 | the chosen field takes the value and the other fields keep theirs |
| FormEdits.SetTitle | d2cdashboard/app/dashboard/components/ComponentForms/edit/ReusableBannerForm.tsx:44 | the title input of both edit forms (the brand card form's is at edit/BrandCardForm.tsx:45): only the title changes |
| FormEdits.RemoveKeepsOne | d2cdashboard/app/dashboard/components/ComponentForms/ReusableBannerForm.tsx:45 | when the remove button is shown, removing never empties the list |
| ReusableBannerForm.AddBanner | d2cdashboard/app/dashboard/components/ComponentForms/ReusableBannerForm.tsx:14-19 | the banners keep their content and gain one blank banner at the end; nothing else changes |
| ReusableBannerForm.RemoveBanner | d2cdashboard/app/dashboard/components/ComponentForms/ReusableBannerForm.tsx:21-26 | exactly the banner at the index is dropped and later ones shift down; an index outside the list changes nothing |
| ReusableBannerForm.UpdateBanner | d2cdashboard/app/dashboard/components/ComponentForms/ReusableBannerForm.tsx:28-32 | only the chosen field of the chosen banner changes |
| ReusableBannerForm.SetTitle | d2cdashboard/app/dashboard/components/ComponentForms/ReusableBannerForm.tsx:39 | only the title changes |
| ReusableBannerForm.RemoveNeverEmpties | d2cdashboard/app/dashboard/components/ComponentForms/ReusableBannerForm.tsx:45 | removing a shown banner through the shown button leaves at least one banner |
| EditReusableBannerForm.AddBanner | d2cdashboard/app/dashboard/components/ComponentForms/edit/ReusableBannerForm.tsx:17-22 | a missing list counts as empty; one blank banner is appended and nothing else changes |
| EditReusableBannerForm.RemoveBanner | d2cdashboard/app/dashboard/components/ComponentForms/edit/ReusableBannerForm.tsx:24-29 | only the banner at the index is dropped, from the list or from [] when it is missing |
| EditReusableBannerForm.UpdateBanner | d2cdashboard/app/dashboard/components/ComponentForms/edit/ReusableBannerForm.tsx:31-35 | only the chosen field of the chosen banner changes |
| EditReusableBannerForm.SetOrder | d2cdashboard/app/dashboard/components/ComponentForms/edit/ReusableBannerForm.tsx:54-57 | the order becomes the integer the text starts with, or 0 for text that is not a number; nothing else changes |
| EditReusableBannerForm.OrderFromText | d2cdashboard/app/dashboard/components/ComponentForms/edit/ReusableBannerForm.tsx:56 | text that is not a number gives 0, and the decimal text of any integer gives that integer |
| EditReusableBannerForm.OrderTextRoundTrip | d2cdashboard/app/dashboard/components/ComponentForms/edit/ReusableBannerForm.tsx:54-57 | typing back the order as it is shown leaves the component unchanged |
| EditReusableBannerForm.OrderFromBlankText | d2cdashboard/app/dashboard/components/ComponentForms/edit/ReusableBannerForm.tsx:56 | empty or non-numeric text sets order 0 |
| EditReusableBannerForm.RemoveNeverEmpties | d2cdashboard/app/dashboard/components/ComponentForms/edit/ReusableBannerForm.tsx:67 | with removal offered only for two or more banners, the list never becomes empty |
| EditBrandCardForm.AddBrand | d2cdashboard/app/dashboard/components/ComponentForms/edit/BrandCardForm.tsx:17-25 | a missing list counts as empty; one brand whose five fields are all "" is appended |
| EditBrandCardForm.RemoveBrand | d2cdashboard/app/dashboard/components/ComponentForms/edit/BrandCardForm.tsx:27-32 | only the brand at the index is dropped |
| EditBrandCardForm.UpdateBrand | d2cdashboard/app/dashboard/components/ComponentForms/edit/BrandCardForm.tsx:34-38 | only the chosen field of the chosen brand changes |
| EditBrandCardForm.RemoveNeverEmpties | d2cdashboard/app/dashboard/components/ComponentForms/edit/BrandCardForm.tsx:51 | with removal offered only for two or more brands, the list never becomes empty |
| DealsRoute.GetOr | d2cdashboard/app/api/deals/route.ts:72-76 | a parameter that is absent or empty falls back to the default |
| DealsRoute.ParseActive | d2cdashboard/app/api/deals/route.ts:85 | `"true"` selects active deals, `"false"` inactive ones, anything else no filter, in both directions |
| DealsRoute.ParseQueryParams | d2cdashboard/app/api/deals/route.ts:70-87 | page and limit are `parseInt` of the parameter or its default; search, sortBy and sortOrder are the parameter or "", "createdAt" and "desc"; the activity filter is read as above |
| DealsRoute.EachParamDefaults | d2cdashboard/app/api/deals/route.ts:70-87 | each parameter on its own: absent or empty gives page 1, limit 10, search "", sortBy "createdAt", sortOrder "desc"; a non-empty search, sortBy or sortOrder is used as sent; no `isActive` means no activity filter |
| DealsRoute.EmptyQueryDefaults | d2cdashboard/app/api/deals/route.ts:72-77 | with no parameters: page 1, limit 10, no search, newest first, no activity filter |
| DealsRoute.PageParamRoundTrip | d2cdashboard/app/api/deals/route.ts:72 | a page number written in decimal is read back as that number |
| DealsRoute.BuildFilter | d2cdashboard/app/api/deals/route.ts:97-103 | the activity filter is copied, and a text search is added exactly when the search is not empty |
| DealsRoute.Skip | d2cdashboard/app/api/deals/route.ts:94 | page 1 skips nothing; a later page skips at least one full page; the skip is never negative for a valid page and limit |
| DealsRoute.SortDirection | d2cdashboard/app/api/deals/route.ts:110 | `desc` sorts descending and everything else ascending |
| DealsRoute.ListPage | d2cdashboard/app/api/deals/route.ts:90-123 | the page holds the consecutive deals from `(page-1)*limit`: exactly `limit` of them when that many remain, all the remaining ones on a partial last page, none past the end; the metadata echoes page and limit and counts all matches |
| DealsRoute.PagesCoverAll | d2cdashboard/app/api/deals/route.ts:119 | the total page count is just enough to hold every match, a page past it is empty, and every page before the last is full |
| DealsRoute.ZeroPriceRejected | d2cdashboard/app/api/deals/route.ts:140-146 | a price of 0 counts as missing, so the body is refused |
| DealsRoute.HasRequiredFields | d2cdashboard/app/api/deals/route.ts:140-146 | a body that passes has both prices present and non-zero, and a non-empty title, subtitle, image URL, shop URL and end date |
| DealsRoute.CreateDeal | d2cdashboard/app/api/deals/route.ts:23-39 | the stored deal copies the body; `isActive` defaults to true and `startDate` to now |
| DealsRoute.ApplyPatch | d2cdashboard/app/api/deals/route.ts:173-177 | each field sent in the update overwrites the stored one, the start date included; every field not sent is kept, and the id always is |
| DealsRoute.EmptyPatchIdentity | d2cdashboard/app/api/deals/route.ts:175 | an empty update changes nothing |
| DealsRoute.ValidPatchKeepsWellFormed | d2cdashboard/app/api/deals/route.ts:176 | with update validators on, an accepted update keeps a deal well formed: required texts non-empty, prices non-negative |
| DealsRoute.IndexOf | d2cdashboard/app/api/deals/route.ts:173 | finds the stored deal with the id, or shows that none has it |
| DealsRoute.DealCollection.Post | d2cdashboard/app/api/deals/route.ts:134-158 | a missing or falsy field gives 400, a negative price 500, both without change; otherwise 201 and the created deal is appended |
| DealsRoute.DealCollection.Put | d2cdashboard/app/api/deals/route.ts:161-194 | no id gives 400; a failed validation 500; an unknown id 404; otherwise 200 with only that deal patched |
| DealsRoute.DealCollection.Delete | d2cdashboard/app/api/deals/route.ts:197-224 | no id gives 400; an unknown id 404; otherwise 200 and exactly that deal is removed |
| DealPage.PreviousPage | d2cdashboard/app/dashboard/deal/page.tsx:628 | one page back, never below page 1 |
| DealPage.NextPage | d2cdashboard/app/dashboard/deal/page.tsx:646 | one page on, never past the last page |
| DealPage.PreviousDisabledWhereIdle | d2cdashboard/app/dashboard/deal/page.tsx:628-629 | Previous is disabled exactly on the page where it would not move |
| DealPage.NextDisabledWhereIdle | d2cdashboard/app/dashboard/deal/page.tsx:646-647 | Next is disabled exactly on the page where it would not move |
| DealPage.NextThenPrevious | d2cdashboard/app/dashboard/deal/page.tsx:628-647 | Next then Previous returns to the page, away from the last page |
| DealPage.PageButtons | d2cdashboard/app/dashboard/deal/page.tsx:633 | one button per page, numbered from 1 |
| DealPage.PageButtonsExactly | d2cdashboard/app/dashboard/deal/page.tsx:633 | the buttons are exactly the pages 1 to `totalPages`, each once, in increasing order |
| DealPage.DealsTable.constructor | d2cdashboard/app/dashboard/deal/page.tsx:101-102 | the table starts on page 1 of 1 |
| DealPage.DealsTable.Previous | d2cdashboard/app/dashboard/deal/page.tsx:628 | the current page steps back as above, and the page stays valid |
| DealPage.DealsTable.Next | d2cdashboard/app/dashboard/deal/page.tsx:623-646 | the current page steps on as above; the button exists only when there is more than one page |
| DealPage.DealsTable.Select | d2cdashboard/app/dashboard/deal/page.tsx:633-637 | a page button sets exactly that page |
| DealPage.DealsTable.ReceiveTotal | d2cdashboard/app/dashboard/deal/page.tsx:141 | a listing answer changes only the page total |
| DealPage.EmptyTitleRejected | d2cdashboard/app/dashboard/deal/page.tsx:74-75 | the form refuses an empty title or subtitle |
| DealPage.ToInput | d2cdashboard/app/dashboard/deal/page.tsx:163-170 | the posted body carries the typed title, subtitle, both prices, image URL, shop URL and active flag unchanged, the chosen end date, and no start date |
| DealPage.FormPostCreatesDeal | d2cdashboard/app/dashboard/deal/page.tsx:163-170 | a valid form with non-zero prices and a chosen end date passes the route's field check and price range, and the created deal holds exactly the typed fields, the end date, and now as its start date |
| DealPage.FreeDealFormPassesRouteRejects | d2cdashboard/app/dashboard/deal/page.tsx:77-78 | a discounted price of 0 passes the form, but the route's falsy check refuses it |
| ServerlessPagination.Normalise | Function/getdeals/index.js:27-28 | the value is at least 1: the parsed number when it is at least 1, otherwise 1, and the default when the parameter is absent |
| ServerlessPagination.Paginate | Function/getdeals/index.js:31-56 | the consecutive documents from the skip: exactly `limit` when that many remain, all the remaining ones on a partial last page; the page count is the least that holds all documents; next and previous flags are exact |
| ServerlessPagination.NeighboursMatchDocuments | Function/getdeals/index.js:42-44 | a next page exists exactly when documents remain after this page, and a previous page exactly when this is not page 1 |
| ServerlessPagination.NormaliseDecimal | Function/getshops/index.js:26-27 | a page or limit sent in decimal is used when it is positive, otherwise 1 |
| ServerlessPagination.FetchPageEchoesQuery | Function/getshops/index.js:23-56 | the answer echoes the normalised page and limit and counts every document |
| ServerlessPagination.DefaultsFirstTen | Function/getdeals/index.js:23 | without parameters the first ten documents are listed on page 1 |
| ServerlessPagination.Handler | Function/getdeals/index.js:60-84 | the handler answers 500 exactly when the database fails; a missing query string means default page and limit |
| CouponForm.GetValidCategory | d2cdashboard/app/dashboard/coupon/coupon-form-modal.tsx:91-95 | the result is always one of the eight categories: a known one is kept, anything else gives the first |
| CouponForm.GetValidCategoryIdempotent | d2cdashboard/app/dashboard/coupon/coupon-form-modal.tsx:91-95 | applying the fallback to its own result changes nothing |
| CouponForm.LeadingHexDigits | d2cdashboard/app/dashboard/coupon/coupon-form-modal.tsx:57 | the length of the longest run of hex digits at the start |
| CouponForm.HexColorSpec | d2cdashboard/app/dashboard/coupon/coupon-form-modal.tsx:57-58 | a colour is accepted exactly when it is `#` followed by exactly three or exactly six hex digits |
| CouponForm.IsHexColor | d2cdashboard/app/dashboard/coupon/coupon-form-modal.tsx:57-58 | an accepted colour starts with `#` and is four or seven characters long |
| CouponForm.DefaultColorValid | d2cdashboard/app/dashboard/coupon/coupon-form-modal.tsx:109-110 | the default colour `#ffffff` is accepted |
| CouponForm.NonEmpty | d2cdashboard/app/dashboard/coupon/coupon-form-modal.tsx:139 | an entry is kept exactly when it is in the input and not empty; each non-empty entry is kept as many times as it occurs |
| CouponForm.NonEmptyKeepsOrder | d2cdashboard/app/dashboard/coupon/coupon-form-modal.tsx:139 | the kept entries are in the input's order |
| CouponForm.NonEmptyKeepsAll | d2cdashboard/app/dashboard/coupon/coupon-form-modal.tsx:139 | a list without empty entries is kept whole |
| CouponForm.SubmittedTerms | d2cdashboard/app/dashboard/coupon/coupon-form-modal.tsx:139 | every submitted term is non-empty and a single line |
| CouponForm.TermsText | d2cdashboard/app/dashboard/coupon/coupon-form-modal.tsx:129 | for at least one term and no term with a line feed, splitting the shown text at line feeds gives back the terms |
| CouponForm.TermsRoundTrip | d2cdashboard/app/dashboard/coupon/coupon-form-modal.tsx:129-139 | terms shown one per line and submitted unchanged come back as the same terms |
| CouponForm.BlankLinesDropped | d2cdashboard/app/dashboard/coupon/coupon-form-modal.tsx:139 | a blank line between terms does not become a term |
| CouponForm.EditFields | d2cdashboard/app/dashboard/coupon/coupon-form-modal.tsx:115-131 | a coupon opened for editing shows a valid category and its terms one per line |
| CouponForm.SubmitForm | d2cdashboard/app/dashboard/coupon/coupon-form-modal.tsx:134-142 | the submission keeps the fields, carries the edited coupon's id (none when creating), and has no empty term |
| CouponForm.EditSubmitRoundTrip | d2cdashboard/app/dashboard/coupon/coupon-form-modal.tsx:115-142 | opening a coupon and submitting without changes sends back its id, its terms and its (valid) category |
| CouponPage.FilterCoupons | d2cdashboard/app/dashboard/coupon/page.tsx:113-117 | a coupon is listed exactly when it is loaded and matches the term, as many times as it is loaded, and the listing keeps the loaded order |
| CouponPage.Matches | d2cdashboard/app/dashboard/coupon/page.tsx:113-117 | an empty search term matches every coupon |
| Common.SkipHeadKeepsSubsequence | d2cdashboard/app/dashboard/coupon/page.tsx:113 | a subsequence of the tail is a subsequence of the whole list |
| Common.SubsequenceOfTail | d2cdashboard/app/dashboard/coupon/page.tsx:113 | dropping the first element of a subsequence keeps it a subsequence |
| CouponPage.EmptyTermKeepsAll | d2cdashboard/app/dashboard/coupon/page.tsx:113-117 | an empty search box lists every coupon |
| CouponPage.ToLowerIdempotent | d2cdashboard/app/dashboard/coupon/page.tsx:114 | lower-casing twice is lower-casing once |
| CouponPage.FilterIgnoresTermCase | d2cdashboard/app/dashboard/coupon/page.tsx:114-116 | the term's case does not change the listing |
| CouponPage.OtherFieldsIgnored | d2cdashboard/app/dashboard/coupon/page.tsx:114-116 | only title, merchant name and code decide a match |
| CouponPage.ModalSubmit | d2cdashboard/app/dashboard/coupon/page.tsx:119-125 | the dialog updates when a coupon is selected and creates otherwise, with the data unchanged |
| ShopPage.SplitCategories | d2cdashboard/app/dashboard/shop/page.tsx:109 | one category per comma-separated piece, each trimmed |
| ShopPage.SplitCategoriesShape | d2cdashboard/app/dashboard/shop/page.tsx:109 | there is one category more than there are commas, none has outer whitespace, and an empty text gives `[""]` |
| ShopPage.CreateBody | d2cdashboard/app/dashboard/shop/page.tsx:102-111 | the body carries the typed fields and the split categories |
| ShopPage.UpdateRequest | d2cdashboard/app/dashboard/shop/page.tsx:131-141 | nothing is sent without a selected shop; otherwise its id with the same body as a creation |
| ShopPage.EditFormData | d2cdashboard/app/dashboard/shop/page.tsx:189-198 | the edit dialog shows the shop's fields as stored, and its categories joined with ", " |
| ShopPage.JoinCommaSpace | d2cdashboard/app/dashboard/shop/page.tsx:195 | joining with ", " is joining with "," after a space in front of each entry |
| ShopPage.EditRoundTrip | d2cdashboard/app/dashboard/shop/page.tsx:109-195 | saving an opened shop without changes sends back its categories, when there is at least one and each is trimmed and has no comma |
| ShopPage.EmptyCategoriesComeBackBlank | d2cdashboard/app/dashboard/shop/page.tsx:109-195 | a shop stored without categories comes back with one empty category |
| AddUser.NewUser | Function/adduser/index.js:44-63 | the record copies name, gender and token; it keeps preferences only when they are an array (otherwise []); both timestamps are the current time |
| AddUser.ExtraFieldsDropped | Function/adduser/index.js:46-53 | fields other than the four named ones do not reach the record |
| AddUser.FalsyFieldsRejected | Function/adduser/index.js:35-42 | an empty name or a missing token is refused |
| AddUser.HasRequiredFields | Function/adduser/index.js:35-42 | a body that passes is an object that has a name, a gender and a token |
| JsNumbers.JsRem | d2cdashboard/app/dashboard/components/ComponentForms/ComponentList.tsx:23 | JavaScript `%`: the remainder has the sign of the dividend and is smaller in size than the divisor |
| JsNumbers.CeilDiv | d2cdashboard/app/api/deals/route.ts:119 | `Math.ceil(a / b)`: for a positive divisor the least integer whose multiple reaches `a`; finite for any non-zero divisor |
| JsNumbers.ParseInt | d2cdashboard/app/api/deals/route.ts:72-73 | text that is empty or only whitespace is `NaN` |
| JsNumbers.ParseIntToString | d2cdashboard/app/api/deals/route.ts:72-73 | `parseInt` of the decimal text of any integer gives that integer |
| Strings.Split | d2cdashboard/app/dashboard/coupon/coupon-form-modal.tsx:139 | at least one piece and no piece holding the separator |
| Strings.SplitJoin | d2cdashboard/app/dashboard/coupon/coupon-form-modal.tsx:129-139 | splitting a join of at least one separator-free piece gives the pieces back |
| Strings.Join | d2cdashboard/app/dashboard/shop/page.tsx:195 | joining nothing gives ""; the result starts with the first piece, followed by the separator when there are two or more |
| Strings.Trim | d2cdashboard/app/dashboard/shop/page.tsx:109 | never longer than the text, and empty exactly when the text is all whitespace |
| Strings.TrimIsTrimmed | d2cdashboard/app/dashboard/shop/page.tsx:109 | a trimmed text neither starts nor ends with whitespace |
| Strings.ToLower | d2cdashboard/app/dashboard/coupon/page.tsx:114 | same length, each character lower-cased |
| Strings.Contains | d2cdashboard/app/dashboard/coupon/page.tsx:114-116 | `includes` holds when the needle is a prefix, and only for a needle no longer than the text |
| Strings.ContainsOccurs | d2cdashboard/app/dashboard/coupon/page.tsx:114-116 | `includes` holds exactly when the needle occurs at some offset |
| AddUser.UsersCollection.Handle | Function/adduser/index.js:29-83 | an unparsable or null body gives 500, a falsy required field 400, an unreachable database 500, all without change; otherwise 201 and the new user is appended |

## Left out

- Network and database I/O are not modelled, and neither are `fetch`, toasts or rendering. The database is the class fields; a failure of the database is a parameter (`refused`, `reachable`, a missing document list).
- After a failed reorder request the hook re-fetches the list from the server. The model leaves this error path out: `ReorderComponents` stops once the request is built.
- The 300 ms debounce of the deals listing is not modelled: it only changes when a request is sent.
- `Promise.all` runs the reorder updates concurrently. The model applies them one after another. For distinct ids this gives the same result, because each update writes a single field of its own document; with repeated ids the concurrent writes may land in either order, and the model picks the last one.
- The transaction's abort is modelled as all-or-nothing: either every update is applied or none is.
- `toLowerCase` is modelled on ASCII letters only. Unicode case mapping is not modelled.
- The zod `.url()` check is a parameter `isUrl`. zod's issue messages and paths are inputs of the model.
- The MongoDB `$text` search is abstract: the listing works on the deals that the database has already filtered and sorted.
- `sortBy` with an arbitrary field is not interpreted, beyond its direction.
- Dates are opaque values. Casting a malformed date, and the form's "end date in the future" rule, are not modelled.
- Prices are whole numbers. Floating point and `NaN` prices are not modelled.
- A malformed Mongo id (`CastError`) is not modelled: ids are plain strings.
- Database connection caching (`isConnected`, `conn`, `cachedDb`) is not modelled.
- The pass-through CRUD routes, the `getcat` and `homecomponents` functions, and the other dashboard pages are not part of this model.
- DealsRoute.ListPage requires `page >= 1` and `limit >= 1`. A negative skip and a limit of 0 are MongoDB behaviour that is not modelled.
- ServerlessPagination.Normalise requires a numeric parameter: `Math.max(1, NaN)` is `NaN`, and a `NaN` page or limit is not modelled.
- ServerlessPagination.Handler requires numeric `page` and `limit` when a query string is present, for the same reason.
- ComponentsApi.SortByOrder keeps insertion order among equal orders. The database does not specify an order for ties.
- AddUser.UsersCollection.Handle treats JSON parsing as given: `body` is the parsed value, or nothing when the text is not JSON.
- Request bodies that are not JSON, or are `null`, make `request.json()` or the destructuring throw, which the routes answer with 500: components POST (d2cdashboard/app/api/components/route.ts:22), reorder PUT (d2cdashboard/app/api/components/reorder/route.ts:22) and deals POST and PUT (d2cdashboard/app/api/deals/route.ts:137, 172). These routes take an already parsed body in the model.
- Orders, prices and page numbers are unbounded integers. JavaScript numbers are doubles: above 2^53 they lose precision, and `String(n)` switches to exponent notation from 1e21, so JsNumbers.NatToString and JsNumbers.ParseInt agree with JavaScript only below those bounds.
- Mongoose's automatic `createdAt` and `updatedAt` (`timestamps: true` on components, home sections and deals) are not modelled. A create stamps both, and every reorder write also bumps `updatedAt`. The reorder listing therefore equals the shown list up to these fields.
- An explicit `null` in a component, home-section or deal body is not modelled: an absent value (`None`) stands for a property that was not sent. The program treats `null` differently in four places:
  - Mongoose runs custom validators on `null`, so a BannerCard with `imageUrl: null` or `clickUrl: null` is rejected (d2cdashboard/models/Component.ts:119-121, 128-131), while ComponentModel.Save skips the validator for an absent URL.
  - Mongoose applies a default only to a missing value, so a home section sent with `isActive: null` is stored with `null` (d2cdashboard/models/Homesection.ts:62), while HomeSection.Save stores `true` for an absent flag.
  - zod's `.optional()` refuses `null` (d2cdashboard/lib/componentValidators.ts:4, 17, 34-35), while the request schema's optional URLs and arrays accept an absent value.
  - A `$set` of a required deal field to `null` fails the update validators, while DealsRoute.ApplyPatch keeps the stored value for a field that was not sent.

=== FILE: add_user.dfy ===
/** The `adduser` function: a user record built from a JSON body and
    inserted into the users collection. */
module AddUser {
  import opened Common

  /** A parsed JSON value; numbers are whole numbers here. */
  datatype JsonValue =
    | JNull
    | JBool(b: bool)
    | JNumber(n: int)
    | JString(s: string)
    | JArray(items: seq<JsonValue>)
    | JObject(fields: map<string, JsonValue>)

  /** JavaScript truthiness of a property value; a missing property is
      `undefined`, which is falsy. */
  predicate Truthy(v: Option<JsonValue>) {
    match v
    case None => false
    case Some(JNull) => false
    case Some(JBool(b)) => b
    case Some(JNumber(n)) => n != 0
    case Some(JString(s)) => s != ""
    case Some(_) => true
  }

  /** `value.key` on anything but `null`: objects have their own keys, every
      other value has none of the keys read here. */
  function Prop(v: JsonValue, key: string): Option<JsonValue> {
    if v.JObject? && key in v.fields then Some(v.fields[key]) else None
  }

  /** The stored user: exactly these six fields, plus its id. */
  datatype User = User(
    id: string,
    name: JsonValue,
    preferences: seq<JsonValue>,
    gender: JsonValue,
    fcmToken: JsonValue,
    createdAt: int,
    lastVisitedAt: int)

  /** The check on the three required fields. */
  predicate HasRequiredFields(data: JsonValue)
    ensures HasRequiredFields(data) ==>
              data.JObject? && "name" in data.fields && "gender" in data.fields && "fcmToken" in data.fields
  {
    Truthy(Prop(data, "name")) && Truthy(Prop(data, "gender")) && Truthy(Prop(data, "fcmToken"))
  }

  /** `newUser` with the inserted id: `preferences` kept only when it is an
      array, both timestamps the same instant `now`. */
  function NewUser(data: JsonValue, now: int, id: string): (u: User)
    requires HasRequiredFields(data)
    ensures u.id == id
    ensures Some(u.name) == Prop(data, "name") && Some(u.gender) == Prop(data, "gender")
    ensures Some(u.fcmToken) == Prop(data, "fcmToken")
    ensures Prop(data, "preferences").Some? && Prop(data, "preferences").value.JArray? ==>
              u.preferences == Prop(data, "preferences").value.items
    ensures !(Prop(data, "preferences").Some? && Prop(data, "preferences").value.JArray?) ==>
              u.preferences == []
    ensures u.createdAt == u.lastVisitedAt == now
  {
    var prefs := Prop(data, "preferences");
    User(id, Prop(data, "name").value,
      if prefs.Some? && prefs.value.JArray? then prefs.value.items else [],
      Prop(data, "gender").value, Prop(data, "fcmToken").value, now, now)
  }

  /** Fields other than name, gender, fcmToken and preferences are not
      stored: adding one to the body changes nothing in the user. */
  lemma ExtraFieldsDropped(fields: map<string, JsonValue>, key: string, value: JsonValue, now: int, id: string)
    requires key !in {"name", "gender", "fcmToken", "preferences"}
    requires HasRequiredFields(JObject(fields))
    ensures HasRequiredFields(JObject(fields[key := value]))
    ensures NewUser(JObject(fields[key := value]), now, id) == NewUser(JObject(fields), now, id)
  {
    assert Prop(JObject(fields[key := value]), "name") == Prop(JObject(fields), "name");
    assert Prop(JObject(fields[key := value]), "gender") == Prop(JObject(fields), "gender");
    assert Prop(JObject(fields[key := value]), "fcmToken") == Prop(JObject(fields), "fcmToken");
    assert Prop(JObject(fields[key := value]), "preferences") == Prop(JObject(fields), "preferences");
  }

  /** A body whose name is the empty string, or whose token is missing, is
      turned away. */
  lemma FalsyFieldsRejected(fields: map<string, JsonValue>)
    requires ("name" in fields && fields["name"] == JString("")) || "fcmToken" !in fields
    ensures !HasRequiredFields(JObject(fields))
  {
  }

  class UsersCollection {
    /** The stored users. */
    var users: seq<User>

    constructor ()
      ensures users == []
    {
      users := [];
    }

    /** The handler. `body` is the parsed request body, or nothing when it
        is not JSON; `now` is the current instant, `newId` the id the
        database assigns, and `reachable` whether the database answers.
        A body that is not JSON, the value `null`, or an unreachable
        database gives 500; a missing or falsy required field gives 400;
        otherwise the user is inserted and answered with 201. */
    method Handle(body: Option<JsonValue>, now: int, newId: string, reachable: bool)
      returns (status: int, created: Option<User>)
      modifies this
      ensures body.None? || body.value.JNull? ==> status == 500 && created.None? && users == old(users)
      ensures body.Some? && !body.value.JNull? && !HasRequiredFields(body.value) ==>
                status == 400 && created.None? && users == old(users)
      ensures body.Some? && !body.value.JNull? && HasRequiredFields(body.value) && !reachable ==>
                status == 500 && created.None? && users == old(users)
      ensures body.Some? && !body.value.JNull? && HasRequiredFields(body.value) && reachable ==>
                && status == 201
                && created == Some(NewUser(body.value, now, newId))
                && users == old(users) + [created.value]
    {
      if body.None? || body.value.JNull? {
        return 500, None;
      }
      var data := body.value;
      if !HasRequiredFields(data) {
        return 400, None;
      }
      if !reachable {
        return 500, None;
      }
      var user := NewUser(data, now, newId);
      users := users + [user];
      return 201, Some(user);
    }
  }
}

=== FILE: carousel.dfy ===
/** The preview carousel of the components list: one slide index per
    component id, stepped two at a time, and the window of banners or
    brands shown from that index. */
module Carousel {
  import opened Common
  import opened JsNumbers
  import opened ComponentTypes

  /** Per-component slide positions, keyed by component id. */
  type SlideIndices = map<string, int>

  /** `slideIndices[id] || 0`: an id without an entry is at slide 0. */
  function Current(indices: SlideIndices, id: string): int {
    if id in indices then indices[id] else 0
  }

  /** The index after the next button: two further on, wrapping at `n`. */
  function NextIndex(cur: int, n: int): (r: int)
    requires n != 0
    ensures cur + 2 >= 0 && n > 0 ==> 0 <= r < n
  {
    JsRem(cur + 2, n)
  }

  /** The index after the previous button: two back, wrapping at `n`. */
  function PreviousIndex(cur: int, n: int): (r: int)
    requires n != 0
    ensures cur - 2 + n >= 0 && n > 0 ==> 0 <= r < n
  {
    JsRem(cur - 2 + n, n)
  }

  /** The arrows are only shown for lists longer than the preview, so both
      buttons are only pressed with at least three items; from any stored
      position they land inside the list. */
  lemma IndicesInRange(cur: int, n: int)
    requires n >= 3 && cur >= 0
    ensures 0 <= NextIndex(cur, n) < n
    ensures 0 <= PreviousIndex(cur, n) < n
  {
  }

  /** Reducing a value below twice the modulus subtracts it at most once. */
  lemma ModBelowTwice(x: int, n: int)
    requires n > 0 && 0 <= x < 2 * n
    ensures x % n == if x < n then x else x - n
  {
  }

  /** Previous undoes Next, and Next undoes Previous, from any position
      inside the list. */
  lemma PreviousNextInverse(cur: int, n: int)
    requires n >= 3 && 0 <= cur < n
    ensures PreviousIndex(NextIndex(cur, n), n) == cur
    ensures NextIndex(PreviousIndex(cur, n), n) == cur
  {
    JsRemNonNegative(cur + 2, n);
    ModBelowTwice(cur + 2, n);
    var a := (cur + 2) % n;
    JsRemNonNegative(a - 2 + n, n);
    ModBelowTwice(a - 2 + n, n);
    JsRemNonNegative(cur - 2 + n, n);
    ModBelowTwice(cur - 2 + n, n);
    var b := (cur - 2 + n) % n;
    JsRemNonNegative(b + 2, n);
    ModBelowTwice(b + 2, n);
  }

  /** `handleNext(id, n)`: only the clicked component's entry changes. */
  function HandleNext(indices: SlideIndices, id: string, n: int): (r: SlideIndices)
    requires n >= 3
    ensures r.Keys == indices.Keys + {id}
    ensures r[id] == NextIndex(Current(indices, id), n)
    ensures forall k :: k in indices && k != id ==> r[k] == indices[k]
  {
    indices[id := NextIndex(Current(indices, id), n)]
  }

  /** `handlePrevious(id, n)`: only the clicked component's entry changes. */
  function HandlePrevious(indices: SlideIndices, id: string, n: int): (r: SlideIndices)
    requires n >= 3
    ensures r.Keys == indices.Keys + {id}
    ensures r[id] == PreviousIndex(Current(indices, id), n)
    ensures forall k :: k in indices && k != id ==> r[k] == indices[k]
  {
    indices[id := PreviousIndex(Current(indices, id), n)]
  }

  /** Pressing next and then previous on the same component, with the list
      unchanged, restores its slide position; a missing entry reads 0. */
  lemma HandleNextThenPrevious(indices: SlideIndices, id: string, n: int)
    requires n >= 3 && 0 <= Current(indices, id) < n
    ensures Current(HandlePrevious(HandleNext(indices, id, n), id, n), id) == Current(indices, id)
  {
    PreviousNextInverse(Current(indices, id), n);
  }

  /** The banners a ReusableBanner preview shows: two from the slide index. */
  function BannerPreview(banners: seq<Banner>, cur: nat): (r: seq<Banner>)
    ensures |r| <= 2
    ensures forall k :: 0 <= k < |r| ==> cur + k < |banners| && r[k] == banners[cur + k]
    ensures cur + 2 <= |banners| ==> r == banners[cur..cur + 2]
  {
    Window(banners, cur, 2)
  }

  /** The brands a BrandCard preview shows: four from the slide index. */
  function BrandPreview(brands: seq<Brand>, cur: nat): (r: seq<Brand>)
    ensures |r| <= 4
    ensures forall k :: 0 <= k < |r| ==> cur + k < |brands| && r[k] == brands[cur + k]
    ensures cur + 4 <= |brands| ==> r == brands[cur..cur + 4]
  {
    Window(brands, cur, 4)
  }

  /** How many banners or brands one preview shows at a time. */
  function PreviewWidth(kind: Kind): nat {
    match kind
    case ReusableBanner => 2
    case BrandCard => 4
    case BannerCard => 1
  }

  /** Whether the preview of a component of this kind, holding `count`
      banners or brands, shows its navigation arrows: only when the list is
      longer than the preview, which also leaves at least three items for
      the wrap-around. A BannerCard has no list and no arrows. */
  function ArrowsShown(kind: Kind, count: nat): (shown: bool)
    ensures shown <==> kind != BannerCard && count > PreviewWidth(kind)
    ensures shown ==> count >= 3
  {
    match kind
    case ReusableBanner => count > 2
    case BrandCard => count > 4
    case BannerCard => false
  }
}

=== FILE: common.dfy ===
/** Shared building blocks: values that may be absent (a JavaScript
    property that was not sent and so is `undefined`, or a query parameter
    that was not sent; an explicit `null` is not one of them), a bounded
    window into a list, and subsequences. */
module Common {

  datatype Option<+T> = None | Some(value: T) {

    /** `x ?? d` and `x || d` for values whose present form is never falsy. */
    function GetOr(default: T): T {
      if Some? then value else default
    }
  }

  /** Up to `width` elements of `s` from position `start`: JavaScript
      `s.slice(start, start + width)` for a non-negative start, and a
      database `skip(start).limit(width)`. */
  function Window<T>(s: seq<T>, start: nat, width: nat): (r: seq<T>)
    ensures |r| <= width
    ensures |r| == if start >= |s| then 0 else if start + width <= |s| then width else |s| - start
    ensures forall k :: 0 <= k < |r| ==> start + k < |s| && r[k] == s[start + k]
  {
    var lo := if start <= |s| then start else |s|;
    var hi := if start + width <= |s| then start + width else |s|;
    s[lo..hi]
  }

  /** `a` is `b` with some elements left out, the rest in the same order. */
  predicate IsSubsequence<T(==)>(a: seq<T>, b: seq<T>)
    decreases |b|
  {
    if a == [] then true
    else if b == [] then false
    else if a[0] == b[0] then IsSubsequence(a[1..], b[1..])
    else IsSubsequence(a, b[1..])
  }

  /** A subsequence of the tail is a subsequence of the whole list. */
  lemma {:induction false} SkipHeadKeepsSubsequence<T>(a: seq<T>, b: seq<T>)
    requires b != [] && IsSubsequence(a, b[1..])
    ensures IsSubsequence(a, b)
    decreases |b|, 0
  {
    if a != [] && a[0] == b[0] {
      SubsequenceOfTail(a, b[1..]);
    }
  }

  /** Dropping the first element of a subsequence keeps it a subsequence. */
  lemma {:induction false} SubsequenceOfTail<T>(a: seq<T>, b: seq<T>)
    requires a != [] && IsSubsequence(a, b)
    ensures IsSubsequence(a[1..], b)
    decreases |b|, 1
  {
    if b != [] {
      if a[0] == b[0] {
        SkipHeadKeepsSubsequence(a[1..], b);
      } else {
        SubsequenceOfTail(a, b[1..]);
        SkipHeadKeepsSubsequence(a[1..], b);
      }
    }
  }
}

=== FILE: component_model.dfy ===
/** The document schema that guards every save of a component: field
    validators, the URL pattern and the type-dependent payload rules.
    The document library's own rules are followed: `trim` is applied before
    validation, a required string rejects "", array paths default to [], and
    custom validators are not run on a path whose value is undefined. */
module ComponentModel {
  import opened Common
  import opened Strings
  import opened ComponentTypes

  /** What follows `https://` or `http://` at the start of `v`. */
  function AfterScheme(v: string): Option<string> {
    if "https://" <= v then Some(v[8..])
    else if "http://" <= v then Some(v[7..])
    else None
  }

  /** `/^https?:\/\/.+/.test(v)`: a scheme, then at least one character
      that `.` matches. */
  predicate MatchesUrlPattern(v: string)
    ensures MatchesUrlPattern(v) ==> ("http://" <= v && |v| > 7) || ("https://" <= v && |v| > 8)
  {
    var rest := AfterScheme(v);
    rest.Some? && rest.value != [] && !IsLineTerminator(rest.value[0])
  }

  /** The URL pattern accepts exactly the texts that start with `http://` or
      `https://` and continue with a character other than a line terminator. */
  lemma UrlPatternSpec(v: string)
    ensures MatchesUrlPattern(v) <==>
      || ("http://" <= v && |v| > 7 && !IsLineTerminator(v[7]))
      || ("https://" <= v && |v| > 8 && !IsLineTerminator(v[8]))
  {
    if "https://" <= v {
      assert !("http://" <= v) by { assert v[4] == 's'; }
    }
  }

  /** A required string path with `trim`: present and not blank. */
  predicate RequiredTrimmed(v: Option<string>) {
    v.Some? && Trim(v.value) != ""
  }

  /** The banner sub-schema: both URLs match the pattern, the title is required. */
  predicate BannerValid(b: Banner) {
    MatchesUrlPattern(b.imageUrl) && MatchesUrlPattern(b.clickUrl) && Trim(b.title) != ""
  }

  /** The brand sub-schema: both URLs match, title and button text are
      required, the tag is optional. */
  predicate BrandValid(b: Brand) {
    MatchesUrlPattern(b.logoUrl) && MatchesUrlPattern(b.clickUrl)
    && Trim(b.title) != "" && Trim(b.buttonText) != ""
  }

  /** The validator on `banners`. */
  predicate BannersValidator(kind: string, v: seq<Banner>) {
    kind != "ReusableBanner" || |v| > 0
  }

  /** The validator shared by `imageUrl` and `clickUrl`. */
  predicate CardUrlValidator(kind: string, v: string) {
    kind != "BannerCard" || (v != "" && MatchesUrlPattern(v))
  }

  /** The validator on `brands`. */
  predicate BrandsValidator(kind: string, v: seq<Brand>) {
    kind != "BrandCard" || |v| > 0
  }

  /** Every path of the component schema validates. */
  predicate Validates(c: ComponentInput)
    ensures Validates(c) ==> c.order.Some? && c.order.value >= 0
    ensures Validates(c) ==> c.title.Some? && Trim(c.title.value) != ""
  {
    && ParseKind(c.kind).Some?
    && c.order.Some? && c.order.value >= 0
    && RequiredTrimmed(c.title)
    && BannersValidator(c.kind, c.banners.GetOr([]))
    && (forall i :: 0 <= i < |c.banners.GetOr([])| ==> BannerValid(c.banners.GetOr([])[i]))
    && (c.imageUrl.Some? ==> CardUrlValidator(c.kind, c.imageUrl.value))
    && (c.clickUrl.Some? ==> CardUrlValidator(c.kind, c.clickUrl.value))
    && BrandsValidator(c.kind, c.brands.GetOr([]))
    && (forall i :: 0 <= i < |c.brands.GetOr([])| ==> BrandValid(c.brands.GetOr([])[i]))
  }

  function TrimBanner(b: Banner): Banner {
    b.(title := Trim(b.title))
  }

  function TrimBrand(b: Brand): Brand {
    b.(title := Trim(b.title), buttonText := Trim(b.buttonText),
       tag := if b.tag.Some? then Some(Trim(b.tag.value)) else None)
  }

  /** `save()`: the stored document when every path validates, with the
      trimmed strings and the defaulted arrays; `None` is a validation error. */
  function Save(c: ComponentInput, id: string): (r: Option<Component>)
    ensures r.Some? <==> Validates(c)
    ensures r.Some? ==> && r.value.id == id && KindName(r.value.kind) == c.kind
                        && r.value.order == c.order.value >= 0
                        && r.value.title != "" && IsTrimmed(r.value.title)
                        && r.value.banners.Some? && |r.value.banners.value| == |c.banners.GetOr([])|
                        && r.value.brands.Some? && |r.value.brands.value| == |c.brands.GetOr([])|
    ensures r.Some? ==> && r.value.imageUrl == c.imageUrl && r.value.clickUrl == c.clickUrl
                        && r.value.buttonText == c.buttonText
    ensures r.Some? ==> forall i :: 0 <= i < |r.value.banners.value| ==>
              var (given, stored) := (c.banners.GetOr([])[i], r.value.banners.value[i]);
              && stored.imageUrl == given.imageUrl && MatchesUrlPattern(stored.imageUrl)
              && stored.clickUrl == given.clickUrl && MatchesUrlPattern(stored.clickUrl)
              && stored.title == Trim(given.title) && stored.title != "" && IsTrimmed(stored.title)
    ensures r.Some? ==> forall i :: 0 <= i < |r.value.brands.value| ==>
              var (given, stored) := (c.brands.GetOr([])[i], r.value.brands.value[i]);
              && stored.logoUrl == given.logoUrl && MatchesUrlPattern(stored.logoUrl)
              && stored.clickUrl == given.clickUrl && MatchesUrlPattern(stored.clickUrl)
              && stored.title == Trim(given.title) && stored.title != "" && IsTrimmed(stored.title)
              && stored.buttonText == Trim(given.buttonText) && stored.buttonText != "" && IsTrimmed(stored.buttonText)
              && stored.tag.Some? == given.tag.Some?
              && (stored.tag.Some? ==> stored.tag.value == Trim(given.tag.value) && IsTrimmed(stored.tag.value))
  {
    if !Validates(c) then None
    else
      TrimsAreTrimmed();
      var banners := c.banners.GetOr([]);
      var brands := c.brands.GetOr([]);
      Some(Component(
        id, ParseKind(c.kind).value, c.order.value, Trim(c.title.value),
        Some(seq(|banners|, i requires 0 <= i < |banners| => TrimBanner(banners[i]))),
        c.imageUrl, c.clickUrl, c.buttonText,
        Some(seq(|brands|, i requires 0 <= i < |brands| => TrimBrand(brands[i])))))
  }

  /** Whatever `trim` returns has no whitespace at either end. */
  lemma TrimsAreTrimmed()
    ensures forall s :: IsTrimmed(Trim(s))
  {
    forall s ensures IsTrimmed(Trim(s)) {
      TrimIsTrimmed(s);
    }
  }

  /** What a saved component satisfies, kind by kind: a ReusableBanner has a
      banner, a BrandCard has a brand, and a BannerCard's URLs, where present,
      match the pattern; no rule of one kind constrains another. */
  lemma SavedPayloads(c: ComponentInput, id: string)
    requires Save(c, id).Some?
    ensures Save(c, id).value.banners.Some? && Save(c, id).value.brands.Some?
    ensures c.kind == "ReusableBanner" ==> |Save(c, id).value.banners.value| > 0
    ensures c.kind == "BrandCard" ==> |Save(c, id).value.brands.value| > 0
    ensures c.kind == "BannerCard" && c.imageUrl.Some? ==> MatchesUrlPattern(c.imageUrl.value)
    ensures c.kind == "BannerCard" && c.clickUrl.Some? ==> MatchesUrlPattern(c.clickUrl.value)
    ensures c.kind != "ReusableBanner" ==> Save(c.(banners := Some([])), id).Some?
    ensures c.kind != "BrandCard" ==> Save(c.(brands := None), id).Some?
    ensures c.kind != "BannerCard" ==> Save(c.(imageUrl := Some(""), clickUrl := Some("")), id).Some?
  {
  }

  /** Because the URL validators are not run on undefined paths, a BannerCard
      without `imageUrl` and `clickUrl` is saved. */
  lemma BannerCardWithoutUrlsIsSaved()
    ensures Save(ComponentInput("BannerCard", Some(0), Some("Sale"), None, None, None, None, None), "c1").Some?
  {
    assert Trim("Sale") == "Sale";
  }

  /** A blank title is trimmed to "" and rejected. */
  lemma BlankTitleRejected(c: ComponentInput, id: string)
    requires c.title == Some(" ")
    ensures Save(c, id).None?
  {
    assert Trim(" ") == "";
  }
}

=== FILE: component_ordering.dfy ===
/** The drag-and-drop reorder that the dashboard performs on its list of
    components: take the dragged item out at the source index, put it back
    at the destination index, then renumber every `order` to its position. */
module ComponentOrdering {
  import opened Common
  import opened ComponentTypes

  /** What the drag-and-drop library reports when a drag ends; the
      destination is missing when the item is dropped outside the list. */
  datatype DropResult = DropResult(source: nat, destination: Option<nat>)

  /** One `{ _id, order }` pair of the reorder request. */
  datatype OrderUpdate = OrderUpdate(id: string, order: int)

  /** The list without the element at `i`. */
  function RemoveAt<T>(s: seq<T>, i: nat): (r: seq<T>)
    requires i < |s|
    ensures |r| == |s| - 1
    ensures forall k :: 0 <= k < |r| ==> r[k] == (if k < i then s[k] else s[k + 1])
  {
    s[..i] + s[i + 1..]
  }

  /** The list after `splice(from, 1)` and `splice(to, 0, item)`. */
  function Move<T>(s: seq<T>, from: nat, to: nat): (r: seq<T>)
    requires from < |s| && to < |s|
    ensures |r| == |s| && r[to] == s[from]
    ensures forall k :: 0 <= k < |r| && k < from && k < to ==> r[k] == s[k]
    ensures forall k :: 0 <= k < |r| && k > from && k > to ==> r[k] == s[k]
  {
    var rest := RemoveAt(s, from);
    rest[..to] + [s[from]] + rest[to..]
  }

  /** Every item's `order` set to its position, all else copied. */
  function Renumber(items: seq<Component>): (r: seq<Component>)
    ensures |r| == |items|
    ensures forall i :: 0 <= i < |r| ==> r[i].order == i && r[i].(order := items[i].order) == items[i]
  {
    seq(|items|, i requires 0 <= i < |items| => items[i].(order := i))
  }

  /** The body of the reorder request: each item's id and order, in display order. */
  function Payload(items: seq<Component>): (r: seq<OrderUpdate>)
    ensures |r| == |items|
    ensures forall i :: 0 <= i < |r| ==> r[i].id == items[i].id && r[i].order == items[i].order
  {
    seq(|items|, i requires 0 <= i < |items| => OrderUpdate(items[i].id, items[i].order))
  }

  /** The move keeps the length and the multiset of items. */
  lemma MovePermutes<T>(s: seq<T>, from: nat, to: nat)
    requires from < |s| && to < |s|
    ensures |Move(s, from, to)| == |s|
    ensures multiset(Move(s, from, to)) == multiset(s)
  {
    var rest := RemoveAt(s, from);
    assert s == s[..from] + [s[from]] + s[from + 1..];
    assert multiset(s) == multiset(s[..from]) + multiset{s[from]} + multiset(s[from + 1..]);
    assert multiset(rest) == multiset(s[..from]) + multiset(s[from + 1..]);
    assert rest == rest[..to] + rest[to..];
    assert multiset(rest) == multiset(rest[..to]) + multiset(rest[to..]);
    assert multiset(Move(s, from, to)) == multiset(rest[..to]) + multiset{s[from]} + multiset(rest[to..]);
    assert multiset(Move(s, from, to)) == multiset(rest) + multiset{s[from]};
  }

  /** The dragged item lands at the destination, and removing it again from
      there gives the other items in their original relative order. */
  lemma MoveLandsAtDestination<T>(s: seq<T>, from: nat, to: nat)
    requires from < |s| && to < |s|
    ensures Move(s, from, to)[to] == s[from]
    ensures RemoveAt(Move(s, from, to), to) == RemoveAt(s, from)
  {
    var rest := RemoveAt(s, from);
    var m := Move(s, from, to);
    assert m[..to] == rest[..to];
    assert m[to + 1..] == rest[to..];
    assert rest[..to] + rest[to..] == rest;
  }

  /** Where each position of the moved list comes from: items between the
      two indices shift by one toward the source, the rest stay put. */
  lemma MoveAt<T>(s: seq<T>, from: nat, to: nat, i: nat)
    requires from < |s| && to < |s| && i < |s|
    ensures Move(s, from, to)[i] ==
      if i == to then s[from]
      else if from < to && from <= i < to then s[i + 1]
      else if to < from && to < i <= from then s[i - 1]
      else s[i]
  {
  }

  /** Renumbering rewrites `order` only: positions become orders `0..n-1`
      and every other field of every item is kept. */
  lemma RenumberSpec(items: seq<Component>)
    ensures |Renumber(items)| == |items|
    ensures forall i :: 0 <= i < |items| ==> Renumber(items)[i].order == i
    ensures forall i :: 0 <= i < |items| ==> Renumber(items)[i] == items[i].(order := Renumber(items)[i].order)
  {
  }

  /** The request body lists every item's id with its position as the order. */
  lemma PayloadOfRenumbered(items: seq<Component>)
    ensures |Payload(Renumber(items))| == |items|
    ensures forall i :: 0 <= i < |items| ==> Payload(Renumber(items))[i] == OrderUpdate(items[i].id, i)
  {
  }

  /** `reorderComponents` / `handleDragEnd` between the early return and the
      request: copy the list, splice the item out and back in, renumber. */
  method MoveAndRenumber(components: seq<Component>, from: nat, to: nat) returns (updated: seq<Component>)
    requires from < |components| && to < |components|
    ensures |updated| == |components|
    ensures updated[to] == components[from].(order := to)
    ensures forall i :: 0 <= i < |updated| ==> updated[i].order == i
    ensures updated == Renumber(Move(components, from, to))
  {
    var items := components;
    var reorderedItem := items[from];
    items := items[..from] + items[from + 1..];
    items := items[..to] + [reorderedItem] + items[to..];
    updated := Renumber(items);
    MoveLandsAtDestination(components, from, to);
  }
}

=== FILE: component_service.dfy ===
/** Server-side validation of component bodies and the mapping of thrown
    errors to HTTP responses. Each validation issue is rendered as
    `message (path)`, the issues are joined with line feeds into one error
    message, and the error handler splits the message back into a list. */
module ComponentService {
  import opened Common
  import opened Strings
  import opened ComponentTypes

  /** One issue of a failed schema parse: its message and the path of keys
      (array indices written in decimal) that leads to the offending value. */
  datatype Issue = Issue(message: string, path: seq<string>)

  /** What can be thrown: the document library's validation error with its
      field messages, any other `Error` with its message, or a non-Error value. */
  datatype Thrown = ModelValidationError(messages: seq<string>) | ErrorValue(message: string) | NonError

  /** The outcome of parsing a body against the component schema. */
  datatype ParseOutcome = Parsed(value: ComponentInput) | SchemaIssues(issues: seq<Issue>) | ParseThrew(error: Thrown)

  datatype Validated = Valid(value: ComponentInput) | Invalid(error: Thrown)

  datatype ApiResponse = ApiResponse(status: int, message: string, errors: Option<seq<string>>)

  /** An issue as shown to the user. */
  function RenderIssue(issue: Issue): (r: string)
    ensures Join(issue.path, ".") == "" ==> r == issue.message
    ensures Join(issue.path, ".") != "" ==> r == issue.message + " (" + Join(issue.path, ".") + ")"
  {
    var field := Join(issue.path, ".");
    issue.message + (if field != "" then " (" + field + ")" else "")
  }

  function RenderIssues(issues: seq<Issue>): (r: seq<string>)
    ensures |r| == |issues|
    ensures forall i :: 0 <= i < |issues| ==> r[i] == RenderIssue(issues[i])
  {
    seq(|issues|, i requires 0 <= i < |issues| => RenderIssue(issues[i]))
  }

  /** `validateComponent`: a parsed value is returned as is; schema issues
      become one `Error` whose message is the rendered issues joined by line
      feeds; anything else thrown is re-thrown unchanged. */
  function ValidateComponent(outcome: ParseOutcome): (r: Validated)
    ensures outcome.Parsed? ==> r == Valid(outcome.value)
    ensures outcome.ParseThrew? ==> r == Invalid(outcome.error)
    ensures outcome.SchemaIssues? ==> r.Invalid? && r.error.ErrorValue?
    ensures outcome.SchemaIssues? ==> r.error.message == Join(RenderIssues(outcome.issues), "\n")
  {
    match outcome
    case Parsed(v) => Valid(v)
    case SchemaIssues(issues) => Invalid(ErrorValue(Join(RenderIssues(issues), "\n")))
    case ParseThrew(e) => Invalid(e)
  }

  /** `handleApiError`. */
  function HandleApiError(error: Thrown): (r: ApiResponse)
    ensures error.ModelValidationError? ==> r == ApiResponse(400, "Validation Error", Some(error.messages))
    ensures error.NonError? ==> r.status == 500 && r.errors == None
    ensures error.ErrorValue? ==> r.status == 400 && r.errors.Some? && |r.errors.value| == Count(error.message, '\n') + 1
    ensures error.ErrorValue? ==> r == ApiResponse(400, "Validation Error", Some(Split(error.message, '\n')))
    ensures error.NonError? ==> r == ApiResponse(500, "Internal server error", None)
  {
    SplitLength(if error.ErrorValue? then error.message else "", '\n');
    match error
    case ModelValidationError(messages) => ApiResponse(400, "Validation Error", Some(messages))
    case ErrorValue(message) => ApiResponse(400, "Validation Error", Some(Split(message, '\n')))
    case NonError => ApiResponse(500, "Internal server error", None)
  }

  /** The list the client receives for rejected input is exactly the
      rendered issues, in their original order, provided no rendered issue
      contains a line feed (a parse that fails reports at least one issue). */
  lemma {:induction false} IssuesSurviveRoundTrip(issues: seq<Issue>)
    requires |issues| >= 1
    requires forall i :: 0 <= i < |issues| ==> '\n' !in RenderIssue(issues[i])
    ensures HandleApiError(ValidateComponent(SchemaIssues(issues)).error) ==
            ApiResponse(400, "Validation Error", Some(RenderIssues(issues)))
  {
    var rendered := RenderIssues(issues);
    assert NoSeparator(rendered, '\n');
    SplitJoin(rendered, '\n');
  }
}

=== FILE: component_types.dfy ===
/** The homepage component records shared by the dashboard client and the
    components API: a tagged union over three kinds of section, each with
    its own optional payload, plus an integer `order` for manual sequencing. */
module ComponentTypes {
  import opened Common

  datatype Kind = ReusableBanner | BannerCard | BrandCard

  /** The `type` string that names each kind. */
  function KindName(k: Kind): string {
    match k
    case ReusableBanner => "ReusableBanner"
    case BannerCard => "BannerCard"
    case BrandCard => "BrandCard"
  }

  /** The enum check on `type`: one of the three names, or nothing. */
  function ParseKind(s: string): (k: Option<Kind>)
    ensures k.Some? <==> s in {"ReusableBanner", "BannerCard", "BrandCard"}
    ensures k.Some? ==> KindName(k.value) == s
  {
    if s == "ReusableBanner" then Some(ReusableBanner)
    else if s == "BannerCard" then Some(BannerCard)
    else if s == "BrandCard" then Some(BrandCard)
    else None
  }

  datatype Banner = Banner(imageUrl: string, clickUrl: string, title: string)

  datatype Brand = Brand(logoUrl: string, clickUrl: string, title: string, tag: Option<string>, buttonText: string)

  /** A stored component as the client receives it. */
  datatype Component = Component(
    id: string,
    kind: Kind,
    order: int,
    title: string,
    banners: Option<seq<Banner>>,
    imageUrl: Option<string>,
    clickUrl: Option<string>,
    buttonText: Option<string>,
    brands: Option<seq<Brand>>)

  /** The creation form's state, where every field is present. */
  datatype NewComponent = NewComponent(
    kind: Kind,
    title: string,
    banners: seq<Banner>,
    imageUrl: string,
    clickUrl: string,
    buttonText: string,
    brands: seq<Brand>)

  /** A request body or unsaved document before any validation: `type` is
      any string and every other field may be missing. */
  datatype ComponentInput = ComponentInput(
    kind: string,
    order: Option<int>,
    title: Option<string>,
    banners: Option<seq<Banner>>,
    imageUrl: Option<string>,
    clickUrl: Option<string>,
    buttonText: Option<string>,
    brands: Option<seq<Brand>>)

  /** No two components share an `_id`. */
  ghost predicate DistinctIds(s: seq<Component>) {
    forall i, j :: 0 <= i < j < |s| ==> s[i].id != s[j].id
  }
}

=== FILE: component_validators.dfy ===
/** The request-side schema for components: a union discriminated by
    `type`, with one object schema per kind. The library's URL check is not
    modelled; it is the parameter `isUrl`. Parsing keeps only the keys the
    schema names, so `order` is not part of a parsed component. */
module ComponentValidators {
  import opened Common
  import opened Strings
  import opened ComponentTypes
  import ComponentModel

  /** An optional URL: absent, the empty string, or a URL. */
  predicate OptionalUrl(v: Option<string>, isUrl: string -> bool) {
    v.None? || v.value == "" || isUrl(v.value)
  }

  predicate BannerSchema(b: Banner, isUrl: string -> bool) {
    isUrl(b.imageUrl) && isUrl(b.clickUrl) && |b.title| >= 1
  }

  predicate BrandSchema(b: Brand, isUrl: string -> bool) {
    isUrl(b.logoUrl) && isUrl(b.clickUrl) && |b.title| >= 1 && |b.buttonText| >= 1
  }

  /** An optional array of banners: absent, or every element valid. */
  predicate BannerArray(v: Option<seq<Banner>>, isUrl: string -> bool) {
    v.None? || forall i :: 0 <= i < |v.value| ==> BannerSchema(v.value[i], isUrl)
  }

  predicate BrandArray(v: Option<seq<Brand>>, isUrl: string -> bool) {
    v.None? || forall i :: 0 <= i < |v.value| ==> BrandSchema(v.value[i], isUrl)
  }

  /** The rules every kind shares: a non-empty title. */
  predicate BaseSchema(c: ComponentInput) {
    c.title.Some? && |c.title.value| >= 1
  }

  predicate ReusableBannerSchema(c: ComponentInput, isUrl: string -> bool) {
    && BaseSchema(c)
    && c.banners.Some? && |c.banners.value| >= 1 && BannerArray(c.banners, isUrl)
    && OptionalUrl(c.imageUrl, isUrl) && OptionalUrl(c.clickUrl, isUrl)
    && BrandArray(c.brands, isUrl)
  }

  predicate BannerCardSchema(c: ComponentInput, isUrl: string -> bool) {
    && BaseSchema(c)
    && c.imageUrl.Some? && isUrl(c.imageUrl.value)
    && c.clickUrl.Some? && isUrl(c.clickUrl.value)
    && c.buttonText.Some? && |c.buttonText.value| >= 1
    && BannerArray(c.banners, isUrl) && BrandArray(c.brands, isUrl)
  }

  predicate BrandCardSchema(c: ComponentInput, isUrl: string -> bool) {
    && BaseSchema(c)
    && c.brands.Some? && |c.brands.value| >= 1 && BrandArray(c.brands, isUrl)
    && OptionalUrl(c.imageUrl, isUrl) && OptionalUrl(c.clickUrl, isUrl)
    && BannerArray(c.banners, isUrl)
  }

  /** `ComponentSchema.parse`: the `type` selects one object schema and only
      that one is applied; an unknown `type` is rejected. `None` is a
      validation failure. */
  function ParseComponent(c: ComponentInput, isUrl: string -> bool): (r: Option<ComponentInput>)
    ensures r.Some? ==> ParseKind(c.kind).Some? && c.title.Some? && |c.title.value| >= 1
    ensures r.Some? ==> r.value == c.(order := None)
  {
    match ParseKind(c.kind)
    case None => None
    case Some(k) =>
      var ok := match k
        case ReusableBanner => ReusableBannerSchema(c, isUrl)
        case BannerCard => BannerCardSchema(c, isUrl)
        case BrandCard => BrandCardSchema(c, isUrl);
      if ok then Some(c.(order := None)) else None
  }

  /** Kind by kind, what a parsed component carries. */
  lemma ParsedPayloads(c: ComponentInput, isUrl: string -> bool)
    requires ParseComponent(c, isUrl).Some?
    ensures c.kind == "ReusableBanner" ==> c.banners.Some? && |c.banners.value| >= 1
    ensures c.kind == "BannerCard" ==>
              && c.imageUrl.Some? && isUrl(c.imageUrl.value)
              && c.clickUrl.Some? && isUrl(c.clickUrl.value)
              && c.buttonText.Some? && c.buttonText.value != ""
    ensures c.kind == "BrandCard" ==> c.brands.Some? && |c.brands.value| >= 1
    ensures c.kind != "BannerCard" ==> OptionalUrl(c.imageUrl, isUrl) && OptionalUrl(c.clickUrl, isUrl)
    ensures c.banners.Some? ==> forall i :: 0 <= i < |c.banners.value| ==>
              && isUrl(c.banners.value[i].imageUrl) && isUrl(c.banners.value[i].clickUrl)
              && c.banners.value[i].title != ""
    ensures c.brands.Some? ==> forall i :: 0 <= i < |c.brands.value| ==>
              && isUrl(c.brands.value[i].logoUrl) && isUrl(c.brands.value[i].clickUrl)
              && c.brands.value[i].title != "" && c.brands.value[i].buttonText != ""
  {
  }

  /** A ReusableBanner body that meets its own variant's rules is accepted,
      whatever its button text: absent or empty URLs pass, and brands, when
      sent, need only be valid brands. */
  lemma ReusableBannerAccepted(c: ComponentInput, isUrl: string -> bool)
    requires c.kind == "ReusableBanner" && c.title.Some? && c.title.value != ""
    requires c.banners.Some? && |c.banners.value| >= 1
    requires forall i :: 0 <= i < |c.banners.value| ==>
               && isUrl(c.banners.value[i].imageUrl) && isUrl(c.banners.value[i].clickUrl)
               && c.banners.value[i].title != ""
    requires c.imageUrl.None? || c.imageUrl.value == "" || isUrl(c.imageUrl.value)
    requires c.clickUrl.None? || c.clickUrl.value == "" || isUrl(c.clickUrl.value)
    requires c.brands.Some? ==> forall i :: 0 <= i < |c.brands.value| ==>
               && isUrl(c.brands.value[i].logoUrl) && isUrl(c.brands.value[i].clickUrl)
               && c.brands.value[i].title != "" && c.brands.value[i].buttonText != ""
    ensures ParseComponent(c, isUrl) == Some(c.(order := None))
  {
  }

  /** A BannerCard body with both URLs, a button text and valid optional
      arrays is accepted. */
  lemma BannerCardAccepted(c: ComponentInput, isUrl: string -> bool)
    requires c.kind == "BannerCard" && c.title.Some? && c.title.value != ""
    requires c.imageUrl.Some? && isUrl(c.imageUrl.value)
    requires c.clickUrl.Some? && isUrl(c.clickUrl.value)
    requires c.buttonText.Some? && c.buttonText.value != ""
    requires c.banners.Some? ==> forall i :: 0 <= i < |c.banners.value| ==>
               && isUrl(c.banners.value[i].imageUrl) && isUrl(c.banners.value[i].clickUrl)
               && c.banners.value[i].title != ""
    requires c.brands.Some? ==> forall i :: 0 <= i < |c.brands.value| ==>
               && isUrl(c.brands.value[i].logoUrl) && isUrl(c.brands.value[i].clickUrl)
               && c.brands.value[i].title != "" && c.brands.value[i].buttonText != ""
    ensures ParseComponent(c, isUrl) == Some(c.(order := None))
  {
  }

  /** A BrandCard body with at least one valid brand, optional URLs that are
      absent, empty or URLs, and valid banners when sent, is accepted. */
  lemma BrandCardAccepted(c: ComponentInput, isUrl: string -> bool)
    requires c.kind == "BrandCard" && c.title.Some? && c.title.value != ""
    requires c.brands.Some? && |c.brands.value| >= 1
    requires forall i :: 0 <= i < |c.brands.value| ==>
               && isUrl(c.brands.value[i].logoUrl) && isUrl(c.brands.value[i].clickUrl)
               && c.brands.value[i].title != "" && c.brands.value[i].buttonText != ""
    requires c.imageUrl.None? || c.imageUrl.value == "" || isUrl(c.imageUrl.value)
    requires c.clickUrl.None? || c.clickUrl.value == "" || isUrl(c.clickUrl.value)
    requires c.banners.Some? ==> forall i :: 0 <= i < |c.banners.value| ==>
               && isUrl(c.banners.value[i].imageUrl) && isUrl(c.banners.value[i].clickUrl)
               && c.banners.value[i].title != ""
    ensures ParseComponent(c, isUrl) == Some(c.(order := None))
  {
  }

  /** The two schemas overlap: when every text the URL check accepts also
      matches the document schema's pattern and the titles carry no outer
      whitespace, a component that parses here and is given a non-negative
      order is also saved by the document schema. */
  lemma ParsedIsSaved(c: ComponentInput, isUrl: string -> bool, order: nat, id: string)
    requires forall v :: isUrl(v) ==> ComponentModel.MatchesUrlPattern(v)
    requires c.title.Some? && IsTrimmed(c.title.value)
    requires forall i :: 0 <= i < |c.banners.GetOr([])| ==> IsTrimmed(c.banners.GetOr([])[i].title)
    requires forall i :: 0 <= i < |c.brands.GetOr([])| ==>
               IsTrimmed(c.brands.GetOr([])[i].title) && IsTrimmed(c.brands.GetOr([])[i].buttonText)
    requires ParseComponent(c, isUrl).Some?
    ensures ComponentModel.Save(c.(order := Some(order)), id).Some?
  {
    TrimTrimmed(c.title.value);
    var banners := c.banners.GetOr([]);
    var brands := c.brands.GetOr([]);
    forall i | 0 <= i < |banners| ensures ComponentModel.BannerValid(banners[i]) {
      TrimTrimmed(banners[i].title);
    }
    forall i | 0 <= i < |brands| ensures ComponentModel.BrandValid(brands[i]) {
      TrimTrimmed(brands[i].title);
      TrimTrimmed(brands[i].buttonText);
    }
  }

  lemma TrimTrimmed(t: string)
    requires IsTrimmed(t)
    ensures Trim(t) == t
  {
    TrimLeadingSpace("", t);
    assert "" + t == t;
  }

  /** The overlap is not complete: a blank title passes here but the
      document schema trims it to "" and rejects it. */
  lemma BlankTitleOnlyPassesHere(isUrl: string -> bool)
    requires forall v :: isUrl(v)
    ensures ParseComponent(ComponentInput("BannerCard", None, Some(" "), None, Some("https://a"), Some("https://b"), Some("Go"), None), isUrl).Some?
    ensures ComponentModel.Save(ComponentInput("BannerCard", Some(0), Some(" "), None, Some("https://a"), Some("https://b"), Some("Go"), None), "c1").None?
  {
    assert Trim(" ") == "";
  }
}

=== FILE: components_api.dfy ===
/** The components collection behind the REST routes: listing sorted by
    `order`, creation at the end of the order, and the transactional
    reorder that writes submitted `order` values all-or-nothing. */
module ComponentsApi {
  import opened Common
  import opened ComponentTypes
  import opened ComponentOrdering
  import ComponentModel

  /** Non-decreasing `order` from front to back. */
  predicate SortedByOrder(s: seq<Component>) {
    forall i, j :: 0 <= i < j < |s| ==> s[i].order <= s[j].order
  }

  /** Place `c` before the first element whose order is not smaller. */
  function Insert(c: Component, sorted: seq<Component>): (r: seq<Component>)
    requires SortedByOrder(sorted)
    ensures |r| == |sorted| + 1
    ensures r[0] == c || (|sorted| > 0 && r[0] == sorted[0])
    ensures SortedByOrder(r)
    ensures multiset(r) == multiset(sorted) + multiset{c}
  {
    if sorted == [] || c.order <= sorted[0].order then [c] + sorted
    else
      var tail := Insert(c, sorted[1..]);
      var r := [sorted[0]] + tail;
      assert sorted == [sorted[0]] + sorted[1..];
      assert sorted[0].order <= tail[0].order;
      assert forall j :: 0 < j < |r| ==> r[j] == tail[j - 1];
      r
  }

  /** `find().sort({ order: 1 })`: the documents by ascending order; the
      database leaves the order of ties open, this model keeps them in
      insertion order. */
  function SortByOrder(s: seq<Component>): (r: seq<Component>)
    ensures SortedByOrder(r)
    ensures multiset(r) == multiset(s)
  {
    if s == [] then []
    else
      assert s == [s[0]] + s[1..];
      Insert(s[0], SortByOrder(s[1..]))
  }

  /** The largest order among the documents. */
  function MaxOrder(docs: seq<Component>): (m: int)
    requires |docs| > 0
    ensures forall i :: 0 <= i < |docs| ==> docs[i].order <= m
    ensures exists i :: 0 <= i < |docs| && docs[i].order == m
  {
    if |docs| == 1 then docs[0].order
    else
      var rest := MaxOrder(docs[1..]);
      assert forall i :: 1 <= i < |docs| ==> docs[i] == docs[1..][i - 1];
      if docs[0].order >= rest then docs[0].order else rest
  }

  /** The order a new component receives: one more than the last, or 0. */
  function NextOrder(docs: seq<Component>): (r: int)
    ensures |docs| == 0 ==> r == 0
    ensures forall i :: 0 <= i < |docs| ==> docs[i].order < r
  {
    if |docs| == 0 then 0 else MaxOrder(docs) + 1
  }

  /** A new component's order is 0 in an empty collection, otherwise one
      more than an existing order, and always above every existing order. */
  lemma NextOrderSpec(docs: seq<Component>)
    ensures |docs| == 0 ==> NextOrder(docs) == 0
    ensures |docs| > 0 ==> exists i :: 0 <= i < |docs| && NextOrder(docs) == docs[i].order + 1
    ensures forall i :: 0 <= i < |docs| ==> docs[i].order < NextOrder(docs)
  {
    if |docs| > 0 {
      var k :| 0 <= k < |docs| && docs[k].order == MaxOrder(docs);
    }
  }

  /** One `findByIdAndUpdate(_id, { order })`: an id that matches no
      document changes nothing. */
  function SetOrder(docs: seq<Component>, u: OrderUpdate): (r: seq<Component>)
    ensures |r| == |docs|
  {
    seq(|docs|, j requires 0 <= j < |docs| => if docs[j].id == u.id then docs[j].(order := u.order) else docs[j])
  }

  /** The submitted updates applied one after another. */
  function ApplyUpdates(docs: seq<Component>, updates: seq<OrderUpdate>): (r: seq<Component>)
    ensures |r| == |docs|
    ensures forall j :: 0 <= j < |docs| ==> r[j].id == docs[j].id
    decreases |updates|
  {
    if updates == [] then docs
    else SetOrder(ApplyUpdates(docs, updates[..|updates| - 1]), updates[|updates| - 1])
  }

  /** The order the updates leave for `id`: the last one submitted for it. */
  function LastOrderFor(updates: seq<OrderUpdate>, id: string): Option<int>
    decreases |updates|
  {
    if updates == [] then None
    else if updates[|updates| - 1].id == id then Some(updates[|updates| - 1].order)
    else LastOrderFor(updates[..|updates| - 1], id)
  }

  /** After the updates, a listed document has the order submitted for it
      (the last one, if its id is listed twice), an unlisted one keeps its
      order, and no field other than `order` changes. */
  lemma {:induction false} ApplyUpdatesAt(docs: seq<Component>, updates: seq<OrderUpdate>, j: nat)
    requires j < |docs|
    ensures ApplyUpdates(docs, updates)[j] == docs[j].(order := LastOrderFor(updates, docs[j].id).GetOr(docs[j].order))
    decreases |updates|
  {
    if updates != [] {
      ApplyUpdatesAt(docs, updates[..|updates| - 1], j);
    }
  }

  /** The body of a reorder request: `components` must be an array. */
  datatype ReorderBody = ComponentsArray(updates: seq<OrderUpdate>) | NotAnArray

  /** Some submitted update is refused by the database. */
  predicate AnyRefused(updates: seq<OrderUpdate>, refused: set<OrderUpdate>) {
    exists i :: 0 <= i < |updates| && updates[i] in refused
  }

  class ComponentCollection {
    /** The stored components, in insertion order. */
    var docs: seq<Component>

    ghost predicate Valid()
      reads this
    {
      DistinctIds(docs)
    }

    constructor ()
      ensures Valid() && docs == []
    {
      docs := [];
    }

    /** `GET /api/components`: every component, by ascending order, or 500
        with nothing listed when the database read fails (`readFails`). */
    method Get(readFails: bool) returns (status: int, listing: seq<Component>)
      ensures readFails ==> status == 500 && listing == []
      ensures !readFails ==> status == 200
      ensures !readFails ==> SortedByOrder(listing) && multiset(listing) == multiset(docs)
      ensures !readFails ==> listing == SortByOrder(docs)
    {
      if readFails {
        return 500, [];
      }
      status := 200;
      listing := SortByOrder(docs);
    }

    /** `POST /api/components`: the body's own `order` is overridden by the
        next order; a document that saves is appended and answered with 201,
        one that fails validation leaves the collection as it was and is
        answered with 500. `newId` is the identifier the database assigns. */
    method Post(body: ComponentInput, newId: string) returns (status: int, created: Option<Component>)
      requires Valid()
      requires forall i :: 0 <= i < |docs| ==> docs[i].id != newId
      modifies this
      ensures Valid()
      ensures created == ComponentModel.Save(body.(order := Some(NextOrder(old(docs)))), newId)
      ensures created.Some? ==>
                && status == 201
                && docs == old(docs) + [created.value]
                && created.value.order == NextOrder(old(docs))
      ensures created.None? ==> status == 500 && docs == old(docs)
    {
      var newOrder := NextOrder(docs);
      var component := body.(order := Some(newOrder));
      created := ComponentModel.Save(component, newId);
      if created.Some? {
        docs := docs + [created.value];
        status := 201;
      } else {
        status := 500;
      }
    }

    /** `PUT /api/components/reorder`: a body without an array is answered
        with 400; otherwise every update is written inside one transaction,
        which is aborted (restoring every order) and answered with 500 as
        soon as the database refuses one; on success the answer is the whole
        collection by ascending order. */
    method Reorder(body: ReorderBody, refused: set<OrderUpdate>) returns (status: int, listing: seq<Component>)
      requires Valid()
      modifies this
      ensures Valid()
      ensures body.NotAnArray? ==> status == 400 && docs == old(docs) && listing == []
      ensures body.ComponentsArray? && AnyRefused(body.updates, refused) ==>
                status == 500 && docs == old(docs) && listing == []
      ensures body.ComponentsArray? && !AnyRefused(body.updates, refused) ==>
                && status == 200
                && docs == ApplyUpdates(old(docs), body.updates)
                && listing == SortByOrder(docs)
    {
      if body.NotAnArray? {
        return 400, [];
      }
      var updates := body.updates;
      var snapshot := docs;
      var i := 0;
      while i < |updates|
        invariant 0 <= i <= |updates|
        invariant docs == ApplyUpdates(snapshot, updates[..i])
        invariant forall k :: 0 <= k < i ==> updates[k] !in refused
        invariant |docs| == |snapshot| && forall j :: 0 <= j < |docs| ==> docs[j].id == snapshot[j].id
      {
        if updates[i] in refused {
          docs := snapshot;
          return 500, [];
        }
        assert updates[..i + 1][..i] == updates[..i];
        docs := SetOrder(docs, updates[i]);
        i := i + 1;
      }
      assert updates[..i] == updates;
      status := 200;
      listing := SortByOrder(docs);
    }
  }
}

=== FILE: components_page.dfy ===
/** The components page's own copy of the drag-and-drop handler, which
    keeps its list in page state rather than in the hook. */
module ComponentsPage {
  import opened Common
  import opened ComponentTypes
  import opened ComponentOrdering

  class ComponentsBoard {
    /** The page's `components` state. */
    var components: seq<Component>

    constructor ()
      ensures components == []
    {
      components := [];
    }

    /** `handleDragEnd`: the same move and renumbering as the hook; the
        request body lists every component's `_id` with its new order. */
    method HandleDragEnd(result: DropResult) returns (body: Option<seq<OrderUpdate>>)
      requires result.source < |components|
      requires result.destination.Some? ==> result.destination.value < |components|
      modifies this
      ensures result.destination.None? ==> components == old(components) && body == None
      ensures result.destination.Some? ==>
        && components == Renumber(Move(old(components), result.source, result.destination.value))
        && multiset(Move(old(components), result.source, result.destination.value)) == multiset(old(components))
        && body == Some(Payload(components))
    {
      if result.destination.None? {
        return None;
      }
      var from, to := result.source, result.destination.value;
      MovePermutes(components, from, to);
      var updatedItems := MoveAndRenumber(components, from, to);
      components := updatedItems;
      body := Some(Payload(updatedItems));
    }
  }
}

=== FILE: coupon_form.dfy ===
/** The coupon form dialog: the category fallback, the colour rule, and the
    terms, edited as one line per term and submitted as a list. */
module CouponForm {
  import opened Common
  import opened Strings

  /** The eight selectable categories, the first being the fallback. */
  const Categories: seq<string> := [
    "Food & Dining", "Shopping", "Travel", "Entertainment",
    "Electronics", "Fashion", "Health & Beauty", "Other"]

  /** `getValidCategory`: a known category is kept, anything else, a
      missing one included, becomes "Food & Dining". */
  function GetValidCategory(category: Option<string>): (r: string)
    ensures r in Categories
    ensures category.Some? && category.value in Categories ==> r == category.value
    ensures !(category.Some? && category.value in Categories) ==> r == "Food & Dining"
  {
    if category.Some? && category.value in Categories then category.value else Categories[0]
  }

  /** Applying the fallback to its own result changes nothing. */
  lemma GetValidCategoryIdempotent(category: Option<string>)
    ensures GetValidCategory(Some(GetValidCategory(category))) == GetValidCategory(category)
  {
  }

  predicate IsHexDigit(c: char) {
    ('0' <= c <= '9') || ('a' <= c <= 'f') || ('A' <= c <= 'F')
  }

  /** The number of hex digits `s` starts with. */
  function LeadingHexDigits(s: string): (n: nat)
    ensures n <= |s|
    ensures forall i :: 0 <= i < n ==> IsHexDigit(s[i])
    ensures n < |s| ==> !IsHexDigit(s[n])
  {
    if s == [] || !IsHexDigit(s[0]) then 0 else 1 + LeadingHexDigits(s[1..])
  }

  /** `/^#([A-Fa-f0-9]{6}|[A-Fa-f0-9]{3})$/`: a `#`, then a run of hex
      digits that ends the text and has length 6 or 3. */
  predicate IsHexColor(s: string)
    ensures IsHexColor(s) ==> (|s| == 4 || |s| == 7) && s[0] == '#'
  {
    && |s| >= 1
    && s[0] == '#'
    && LeadingHexDigits(s[1..]) == |s| - 1
    && (|s| - 1 == 6 || |s| - 1 == 3)
  }

  /** A colour is `#` followed by exactly three or exactly six hex digits
      and nothing else. */
  lemma HexColorSpec(s: string)
    ensures IsHexColor(s) <==>
              && (|s| == 4 || |s| == 7)
              && s[0] == '#'
              && forall i :: 1 <= i < |s| ==> IsHexDigit(s[i])
  {
  }

  /** The form's default colour is accepted. */
  lemma DefaultColorValid()
    ensures IsHexColor("#ffffff")
  {
    HexColorSpec("#ffffff");
  }

  /** `.filter(Boolean)` on strings: the empty ones dropped, order kept. */
  function NonEmpty(parts: seq<string>): (r: seq<string>)
    ensures forall i :: 0 <= i < |r| ==> r[i] != "" && r[i] in parts
    ensures |r| <= |parts|
    ensures forall x :: x in r <==> x in parts && x != ""
    ensures forall x :: x != "" ==> multiset(r)[x] == multiset(parts)[x]
  {
    if parts == [] then []
    else
      assert parts == [parts[0]] + parts[1..];
      if parts[0] == "" then NonEmpty(parts[1..])
      else [parts[0]] + NonEmpty(parts[1..])
  }

  /** Nothing is dropped from a list without empty entries. */
  lemma {:induction false} NonEmptyKeepsAll(parts: seq<string>)
    requires forall i :: 0 <= i < |parts| ==> parts[i] != ""
    ensures NonEmpty(parts) == parts
  {
    if parts != [] {
      NonEmptyKeepsAll(parts[1..]);
    }
  }

  /** Dropping the blank lines keeps the remaining terms in their order. */
  lemma {:induction false} NonEmptyKeepsOrder(parts: seq<string>)
    ensures IsSubsequence(NonEmpty(parts), parts)
  {
    if parts != [] {
      NonEmptyKeepsOrder(parts[1..]);
      if parts[0] == "" {
        if NonEmpty(parts[1..]) != [] {
          SkipHeadKeepsSubsequence(NonEmpty(parts[1..]), parts);
        }
      } else {
        assert NonEmpty(parts)[1..] == NonEmpty(parts[1..]);
      }
    }
  }

  /** The terms as the textarea shows them: one per line. */
  function TermsText(terms: seq<string>): (r: string)
    ensures |terms| >= 1 && NoSeparator(terms, '\n') ==> Split(r, '\n') == terms
  {
    if |terms| >= 1 && NoSeparator(terms, '\n') then
      SplitJoin(terms, '\n');
      Join(terms, "\n")
    else
      Join(terms, "\n")
  }

  /** The terms as submitted: the text split into lines, blank ones dropped. */
  function SubmittedTerms(text: string): (terms: seq<string>)
    ensures forall i :: 0 <= i < |terms| ==> terms[i] != "" && '\n' !in terms[i]
  {
    NonEmpty(Split(text, '\n'))
  }

  /** Showing a coupon's terms and submitting them unchanged gives back the
      same list, provided no term is blank or spans lines; this includes an
      empty list. */
  lemma TermsRoundTrip(terms: seq<string>)
    requires forall i :: 0 <= i < |terms| ==> terms[i] != "" && '\n' !in terms[i]
    ensures SubmittedTerms(TermsText(terms)) == terms
  {
    if terms == [] {
      assert Split("", '\n') == [""];
    } else {
      SplitJoin(terms, '\n');
      NonEmptyKeepsAll(terms);
    }
  }

  /** A blank line the user leaves between terms does not become a term. */
  lemma BlankLinesDropped()
    ensures SubmittedTerms("a\n\nb") == ["a", "b"]
  {
    var text := "a\n\nb";
    assert text[1..] == "\n\nb" && text[1..][1..] == "\nb" && text[1..][1..][1..] == "b";
    assert "b"[1..] == "" && Split("", '\n') == [""];
    assert ["b"[0]] + Split("", '\n')[0] == "b";
    assert Split("", '\n')[1..] == [];
    assert Split("b", '\n') == ["b"];
    assert Split("\nb", '\n') == ["", "b"];
    assert Split("\n\nb", '\n') == ["", "", "b"];
    assert ["a"[0]] + "" == "a";
    assert Split(text, '\n') == ["a", "", "b"];
  }

  /** A stored coupon. */
  datatype Coupon = Coupon(
    id: string,
    title: string,
    merchantName: string,
    merchantLogo: string,
    clickurl: string,
    couponCode: string,
    description: string,
    expirationDate: string,
    discount: string,
    category: string,
    backgroundColor: string,
    accentColor: string,
    terms: seq<string>)

  /** The form's fields; `terms` is the textarea's text. */
  datatype CouponFields = CouponFields(
    title: string,
    merchantName: string,
    merchantLogo: string,
    clickurl: string,
    couponCode: string,
    description: string,
    expirationDate: string,
    discount: string,
    category: string,
    backgroundColor: string,
    accentColor: string,
    terms: string)

  /** The form schema, with URL validity as a parameter. */
  predicate FormValid(f: CouponFields, isUrl: string -> bool) {
    && f.title != "" && f.merchantName != "" && f.couponCode != ""
    && f.description != "" && f.expirationDate != "" && f.discount != ""
    && isUrl(f.merchantLogo) && isUrl(f.clickurl)
    && f.category in Categories
    && IsHexColor(f.backgroundColor) && IsHexColor(f.accentColor)
    && f.terms != ""
  }

  /** The form loaded with a coupon for editing. */
  function EditFields(c: Coupon): (f: CouponFields)
    ensures f.category in Categories
    ensures f.terms == TermsText(c.terms)
  {
    CouponFields(c.title, c.merchantName, c.merchantLogo, c.clickurl, c.couponCode, c.description,
      c.expirationDate, c.discount, GetValidCategory(Some(c.category)), c.backgroundColor,
      c.accentColor, TermsText(c.terms))
  }

  /** What the dialog submits: the fields as entered, the edited coupon's
      id (none when creating), and the terms as a list. */
  datatype Submission = Submission(fields: CouponFields, id: Option<string>, terms: seq<string>)

  /** `handleFormSubmit`. */
  function SubmitForm(f: CouponFields, editing: Option<Coupon>): (s: Submission)
    ensures s.fields == f
    ensures editing.Some? ==> s.id == Some(editing.value.id)
    ensures editing.None? ==> s.id.None?
    ensures forall i :: 0 <= i < |s.terms| ==> s.terms[i] != ""
  {
    Submission(f, if editing.Some? then Some(editing.value.id) else None, SubmittedTerms(f.terms))
  }

  /** Opening a coupon for editing and submitting without changes sends
      back its id, its terms and, when its category is known, its category. */
  lemma EditSubmitRoundTrip(c: Coupon)
    requires forall i :: 0 <= i < |c.terms| ==> c.terms[i] != "" && '\n' !in c.terms[i]
    ensures SubmitForm(EditFields(c), Some(c)).id == Some(c.id)
    ensures SubmitForm(EditFields(c), Some(c)).terms == c.terms
    ensures c.category in Categories ==> SubmitForm(EditFields(c), Some(c)).fields.category == c.category
  {
    TermsRoundTrip(c.terms);
  }
}

=== FILE: coupon_page.dfy ===
/** The coupons page: the search box filter over the loaded coupons and the
    dialog's submit dispatch. */
module CouponPage {
  import opened Common
  import opened Strings
  import opened CouponForm

  /** `field.toLowerCase().includes(term.toLowerCase())`. */
  predicate FieldMatches(field: string, term: string) {
    Contains(ToLower(field), ToLower(term))
  }

  /** A coupon is kept when its title, merchant name or code contains the
      term, ignoring case. */
  predicate Matches(c: Coupon, term: string)
    ensures term == "" ==> Matches(c, term)
  {
    FieldMatches(c.title, term) || FieldMatches(c.merchantName, term) || FieldMatches(c.couponCode, term)
  }

  /** `filteredCoupons`. */
  function FilterCoupons(coupons: seq<Coupon>, term: string): (r: seq<Coupon>)
    ensures forall c :: c in r <==> c in coupons && Matches(c, term)
    ensures IsSubsequence(r, coupons)
    ensures forall c :: multiset(r)[c] == if Matches(c, term) then multiset(coupons)[c] else 0
  {
    if coupons == [] then []
    else
      var rest := FilterCoupons(coupons[1..], term);
      assert forall c :: c in coupons <==> c == coupons[0] || c in coupons[1..];
      assert coupons == [coupons[0]] + coupons[1..];
      if Matches(coupons[0], term) then [coupons[0]] + rest
      else
        SkipHeadKeepsSubsequence(rest, coupons);
        rest
  }

  /** An empty search box keeps every coupon. */
  lemma {:induction false} EmptyTermKeepsAll(coupons: seq<Coupon>)
    ensures FilterCoupons(coupons, "") == coupons
  {
    if coupons != [] {
      ContainsEmpty(ToLower(coupons[0].title));
      EmptyTermKeepsAll(coupons[1..]);
    }
  }

  /** Lower-casing twice is lower-casing once. */
  lemma ToLowerIdempotent(s: string)
    ensures ToLower(ToLower(s)) == ToLower(s)
  {
  }

  /** The term's case does not matter: searching for its lower-case form
      keeps the same coupons. */
  lemma {:induction false} FilterIgnoresTermCase(coupons: seq<Coupon>, term: string)
    ensures FilterCoupons(coupons, ToLower(term)) == FilterCoupons(coupons, term)
  {
    ToLowerIdempotent(term);
    if coupons != [] {
      FilterIgnoresTermCase(coupons[1..], term);
    }
  }

  /** Fields other than title, merchant name and code never decide a match. */
  lemma OtherFieldsIgnored(c: Coupon, term: string, description: string, discount: string, category: string)
    ensures Matches(c.(description := description, discount := discount, category := category), term) == Matches(c, term)
  {
  }

  /** What the dialog's submit asks the page to do. */
  datatype Request = UpdateCoupon(data: Submission) | CreateCoupon(data: Submission)

  /** `handleModalSubmit`: an update while a coupon is selected, a creation
      otherwise, carrying the submission unchanged. */
  function ModalSubmit(selected: Option<Coupon>, data: Submission): (r: Request)
    ensures r.UpdateCoupon? <==> selected.Some?
    ensures r.data == data
  {
    if selected.Some? then UpdateCoupon(data) else CreateCoupon(data)
  }
}

=== FILE: deal_page.dfy ===
/** The deals table page: the current-page state stepped by the pagination
    controls, the page-number buttons, and the deal form's rules. */
module DealPage {
  import opened Common
  import DealsRoute

  /** The Previous button's update: one page back, never below page 1. */
  function PreviousPage(p: int): (r: int)
    ensures r >= 1
    ensures r <= p || p < 1
    ensures p > 1 ==> r == p - 1
  {
    if p - 1 > 1 then p - 1 else 1
  }

  /** The Next button's update: one page on, never past the last page. */
  function NextPage(p: int, totalPages: int): (r: int)
    ensures r <= totalPages
    ensures r <= p + 1
    ensures p < totalPages ==> r == p + 1
  {
    if totalPages < p + 1 then totalPages else p + 1
  }

  /** Previous is disabled exactly where it would not move. */
  lemma PreviousDisabledWhereIdle(p: int)
    requires p >= 1
    ensures PreviousPage(p) == p <==> p == 1
  {
  }

  /** Next is disabled exactly where it would not move. */
  lemma NextDisabledWhereIdle(p: int, totalPages: int)
    requires p <= totalPages
    ensures NextPage(p, totalPages) == p <==> p == totalPages
  {
  }

  /** Next then Previous returns to the page, away from the last page. */
  lemma NextThenPrevious(p: int, totalPages: int)
    requires 1 <= p < totalPages
    ensures PreviousPage(NextPage(p, totalPages)) == p
  {
  }

  /** `Array.from({ length: totalPages }, (_, i) => i + 1)`. */
  function PageButtons(totalPages: int): (pages: seq<int>)
    ensures |pages| == if totalPages > 0 then totalPages else 0
    ensures forall i :: 0 <= i < |pages| ==> pages[i] == i + 1
  {
    seq(if totalPages > 0 then totalPages else 0, i => i + 1)
  }

  /** The buttons are the pages 1 to `totalPages`, each once, in order. */
  lemma PageButtonsExactly(totalPages: int)
    ensures forall p :: p in PageButtons(totalPages) <==> 1 <= p <= totalPages
    ensures forall i, j :: 0 <= i < j < |PageButtons(totalPages)| ==> PageButtons(totalPages)[i] < PageButtons(totalPages)[j]
  {
    var pages := PageButtons(totalPages);
    forall p | 1 <= p <= totalPages
      ensures p in pages
    {
      assert pages[p - 1] == p;
    }
  }

  /** The pagination controls are rendered only for more than one page. */
  predicate ControlsShown(totalPages: int) {
    totalPages > 1
  }

  /** The page state of the deals table. */
  class DealsTable {
    var currentPage: int
    var totalPages: int
    var loading: bool

    ghost predicate Valid()
      reads this
    {
      currentPage >= 1
    }

    constructor ()
      ensures Valid() && currentPage == 1 && totalPages == 1 && !loading
    {
      currentPage := 1;
      totalPages := 1;
      loading := false;
    }

    predicate PreviousDisabled()
      reads this
    {
      currentPage == 1 || loading
    }

    predicate NextDisabled()
      reads this
    {
      currentPage == totalPages || loading
    }

    /** The Previous button. */
    method Previous()
      requires Valid()
      modifies this
      ensures Valid()
      ensures currentPage == PreviousPage(old(currentPage))
      ensures totalPages == old(totalPages) && loading == old(loading)
    {
      currentPage := PreviousPage(currentPage);
    }

    /** The Next button. The page total is the last one the listing
        answered with, and the current page is not pulled back when that
        total shrinks, so Next can also move back to the last page. The
        button exists only while there is more than one page. */
    method Next()
      requires Valid() && ControlsShown(totalPages)
      modifies this
      ensures Valid()
      ensures currentPage == NextPage(old(currentPage), old(totalPages))
      ensures totalPages == old(totalPages) && loading == old(loading)
    {
      currentPage := NextPage(currentPage, totalPages);
    }

    /** A page-number button. */
    method Select(page: int)
      requires page in PageButtons(totalPages)
      modifies this
      ensures Valid()
      ensures currentPage == page
      ensures totalPages == old(totalPages) && loading == old(loading)
    {
      PageButtonsExactly(totalPages);
      currentPage := page;
    }

    /** A listing answer arrives: only the page total changes. */
    method ReceiveTotal(total: int)
      requires Valid()
      modifies this
      ensures Valid()
      ensures totalPages == total && currentPage == old(currentPage) && loading == old(loading)
    {
      totalPages := total;
    }
  }

  /** The deal form's fields; prices are whole numbers here. */
  datatype DealForm = DealForm(
    title: string,
    subtitle: string,
    imageUrl: string,
    originalPrice: int,
    discountedPrice: int,
    shopUrl: string,
    isActive: bool)

  /** The form schema, with URL validity as a parameter: titles non-empty,
      both URLs valid, both prices at least 0. */
  predicate FormValid(f: DealForm, isUrl: string -> bool) {
    && |f.title| >= 1
    && |f.subtitle| >= 1
    && isUrl(f.imageUrl)
    && isUrl(f.shopUrl)
    && f.originalPrice >= 0
    && f.discountedPrice >= 0
  }

  /** An empty title or subtitle is always refused. */
  lemma EmptyTitleRejected(f: DealForm, isUrl: string -> bool)
    requires f.title == "" || f.subtitle == ""
    ensures !FormValid(f, isUrl)
  {
  }

  /** The body the form posts, with the end date as text. */
  function ToInput(f: DealForm, endDate: string): (b: DealsRoute.DealInput)
    ensures b.title == Some(f.title) && b.subtitle == Some(f.subtitle)
    ensures b.originalPrice == Some(f.originalPrice) && b.discountedPrice == Some(f.discountedPrice)
    ensures b.imageUrl == Some(f.imageUrl) && b.shopUrl == Some(f.shopUrl)
    ensures b.isActive == Some(f.isActive) && b.endDate == Some(endDate)
    ensures b.startDate.None?
  {
    DealsRoute.DealInput(Some(f.imageUrl), Some(f.title), Some(f.subtitle), Some(f.originalPrice),
      Some(f.discountedPrice), Some(f.shopUrl), Some(f.isActive), None, Some(endDate))
  }

  /** A valid form with non-zero prices and an end date is accepted by the
      route, which stores exactly the deal that was filled in, starting now,
      provided the URL check accepts no empty text. */
  lemma FormPostCreatesDeal(f: DealForm, isUrl: string -> bool, endDate: string, id: string, now: int)
    requires forall v :: isUrl(v) ==> v != ""
    requires FormValid(f, isUrl) && f.originalPrice != 0 && f.discountedPrice != 0 && endDate != ""
    ensures DealsRoute.HasRequiredFields(ToInput(f, endDate))
    ensures DealsRoute.PricesInRange(ToInput(f, endDate))
    ensures DealsRoute.CreateDeal(ToInput(f, endDate), id, now) ==
            DealsRoute.Deal(id, f.imageUrl, f.title, f.subtitle, f.originalPrice, f.discountedPrice,
                            f.shopUrl, f.isActive, now, endDate)
  {
  }

  /** The form accepts a price of 0, but the route's falsy check turns the
      same deal away with 400. */
  lemma FreeDealFormPassesRouteRejects(f: DealForm, isUrl: string -> bool, endDate: string)
    requires FormValid(f, isUrl) && f.discountedPrice == 0
    ensures !DealsRoute.HasRequiredFields(ToInput(f, endDate))
  {
  }
}

=== FILE: deals_route.dfy ===
/** The deals REST route: query-string parsing, the paginated listing, and
    the create, update and delete handlers over the Deals collection. */
module DealsRoute {
  import opened Common
  import opened JsNumbers

  /** `searchParams.get(key)`: the value, or nothing when absent. */
  type SearchParams = map<string, string>

  function Get(params: SearchParams, key: string): Option<string> {
    if key in params then Some(params[key]) else None
  }

  /** `params.get(key) || fallback`: absent and empty both fall back. */
  function GetOr(params: SearchParams, key: string, fallback: string): (r: string)
    ensures key in params && params[key] != "" ==> r == params[key]
    ensures !(key in params && params[key] != "") ==> r == fallback
  {
    match Get(params, key)
    case Some(v) => if v != "" then v else fallback
    case None => fallback
  }

  /** The parsed listing query; a page or limit that is not a number is NaN. */
  datatype Query = Query(
    page: Option<int>,
    limit: Option<int>,
    search: string,
    sortBy: string,
    sortOrder: string,
    isActive: Option<bool>)

  /** `"true"` and `"false"` select active or inactive deals; anything
      else, absence included, selects both. */
  function ParseActive(v: Option<string>): (r: Option<bool>)
    ensures r == Some(true) <==> v == Some("true")
    ensures r == Some(false) <==> v == Some("false")
    ensures r.None? <==> v != Some("true") && v != Some("false")
  {
    if v == Some("true") then Some(true)
    else if v == Some("false") then Some(false)
    else None
  }

  /** `parseQueryParams`. */
  function ParseQueryParams(params: SearchParams): (q: Query)
    ensures q.page == ParseInt(GetOr(params, "page", "1"))
    ensures q.limit == ParseInt(GetOr(params, "limit", "10"))
    ensures q.isActive == ParseActive(Get(params, "isActive"))
    ensures q.search == GetOr(params, "search", "")
    ensures q.sortBy == GetOr(params, "sortBy", "createdAt")
    ensures q.sortOrder == GetOr(params, "sortOrder", "desc")
  {
    Query(
      ParseInt(GetOr(params, "page", "1")),
      ParseInt(GetOr(params, "limit", "10")),
      GetOr(params, "search", ""),
      GetOr(params, "sortBy", "createdAt"),
      GetOr(params, "sortOrder", "desc"),
      ParseActive(Get(params, "isActive")))
  }

  /** With no parameters the listing asks for the first ten deals, newest
      first, with no search and no activity filter. */
  lemma EmptyQueryDefaults()
    ensures ParseQueryParams(map[]) == Query(Some(1), Some(10), "", "createdAt", "desc", None)
  {
    ParseIntToString(1);
    ParseIntToString(10);
  }

  /** Each parameter falls back to its own default, independently of the
      others, when it is absent or empty, and is taken as sent otherwise. */
  lemma EachParamDefaults(params: SearchParams)
    ensures !("page" in params && params["page"] != "") ==> ParseQueryParams(params).page == Some(1)
    ensures !("limit" in params && params["limit"] != "") ==> ParseQueryParams(params).limit == Some(10)
    ensures !("search" in params && params["search"] != "") ==> ParseQueryParams(params).search == ""
    ensures !("sortBy" in params && params["sortBy"] != "") ==> ParseQueryParams(params).sortBy == "createdAt"
    ensures !("sortOrder" in params && params["sortOrder"] != "") ==> ParseQueryParams(params).sortOrder == "desc"
    ensures "isActive" !in params ==> ParseQueryParams(params).isActive.None?
    ensures "search" in params ==> ParseQueryParams(params).search == params["search"]
    ensures "sortBy" in params && params["sortBy"] != "" ==> ParseQueryParams(params).sortBy == params["sortBy"]
    ensures "sortOrder" in params && params["sortOrder"] != "" ==> ParseQueryParams(params).sortOrder == params["sortOrder"]
  {
    ParseIntToString(1);
    ParseIntToString(10);
  }

  /** Any page number written in decimal is read back as that number. */
  lemma PageParamRoundTrip(params: SearchParams, page: int)
    ensures ParseQueryParams(params["page" := IntToString(page)]).page == Some(page)
  {
    ParseIntToString(page);
    NatToStringValue(if page < 0 then -page else page);
  }

  /** The database filter: an activity flag and a text search, each
      optional. */
  datatype Filter = Filter(isActive: Option<bool>, text: Option<string>)

  function BuildFilter(q: Query): (f: Filter)
    ensures f.isActive == q.isActive
    ensures f.text.Some? <==> q.search != ""
    ensures f.text.Some? ==> f.text.value == q.search
  {
    Filter(q.isActive, if q.search != "" then Some(q.search) else None)
  }

  /** `sortOrder === 'desc' ? -1 : 1`. */
  function SortDirection(sortOrder: string): (d: int)
    ensures d == -1 <==> sortOrder == "desc"
    ensures d == 1 <==> sortOrder != "desc"
  {
    if sortOrder == "desc" then -1 else 1
  }

  /** The pagination block of a listing answer. */
  datatype Pagination = Pagination(currentPage: int, totalPages: JsNumber, totalItems: nat, itemsPerPage: int)

  /** The listing answer: the deals of the requested page and its
      pagination, given the matching deals in the requested sort order. */
  datatype Listing = Listing(deals: seq<string>, pagination: Pagination)

  /** `(page - 1) * limit`: no clamping. */
  function Skip(page: int, limit: int): (r: int)
    ensures page >= 1 && limit >= 0 ==> r >= 0
    ensures page == 1 ==> r == 0
    ensures limit > 0 && page > 1 ==> r >= limit
  {
    (page - 1) * limit
  }

  /** `GET /api/deals` after the database has filtered and sorted: the
      `limit` deals after `skip`, and `Math.ceil(total / limit)` pages. */
  function ListPage(matching: seq<string>, page: int, limit: int): (r: Listing)
    requires page >= 1 && limit >= 1
    ensures r.pagination.currentPage == page && r.pagination.itemsPerPage == limit
    ensures r.pagination.totalItems == |matching|
    ensures r.pagination.totalPages.Finite?
    ensures |r.deals| <= limit
    ensures Skip(page, limit) >= |matching| ==> r.deals == []
    ensures Skip(page, limit) + limit <= |matching| ==> |r.deals| == limit
    ensures Skip(page, limit) < |matching| < Skip(page, limit) + limit ==>
              |r.deals| == |matching| - Skip(page, limit)
    ensures forall k :: 0 <= k < |r.deals| ==>
              Skip(page, limit) + k < |matching| && r.deals[k] == matching[Skip(page, limit) + k]
  {
    var skip := Skip(page, limit);
    assert skip >= 0 by {
      assert (page - 1) * limit >= 0 * limit;
    }
    Listing(Window(matching, skip, limit), Pagination(page, CeilDiv(|matching|, limit), |matching|, limit))
  }

  /** Multiplying by a non-negative number keeps the order. */
  lemma MulMonotone(a: int, b: int, c: int)
    requires a <= b && c >= 0
    ensures a * c <= b * c
  {
  }

  /** The pages number just enough to hold every matching deal: the last
      page is non-empty, a page past it is empty, and every page before
      the last is full. */
  lemma PagesCoverAll(matching: seq<string>, page: int, limit: int)
    requires page >= 1 && limit >= 1
    ensures var total := ListPage(matching, page, limit).pagination.totalPages.n;
            && (total - 1) * limit < |matching| <= total * limit
            && (page > total ==> ListPage(matching, page, limit).deals == [])
            && (page < total ==> |ListPage(matching, page, limit).deals| == limit)
  {
    var total := CeilDiv(|matching|, limit).n;
    assert Skip(page, limit) + limit == page * limit;
    if page > total {
      MulMonotone(total, page - 1, limit);
    } else if page < total {
      MulMonotone(page, total - 1, limit);
    }
  }

  /** A stored deal. Prices are whole numbers; dates are opaque values. */
  datatype Deal = Deal(
    id: string,
    imageUrl: string,
    title: string,
    subtitle: string,
    originalPrice: int,
    discountedPrice: int,
    shopUrl: string,
    isActive: bool,
    startDate: int,
    endDate: string)

  /** A request body: any field may be missing. */
  datatype DealInput = DealInput(
    imageUrl: Option<string>,
    title: Option<string>,
    subtitle: Option<string>,
    originalPrice: Option<int>,
    discountedPrice: Option<int>,
    shopUrl: Option<string>,
    isActive: Option<bool>,
    startDate: Option<int>,
    endDate: Option<string>)

  predicate TruthyText(v: Option<string>) {
    v.Some? && v.value != ""
  }

  predicate TruthyNumber(v: Option<int>) {
    v.Some? && v.value != 0
  }

  /** The route's own check that every required field is present and not
      falsy. */
  predicate HasRequiredFields(b: DealInput)
    ensures HasRequiredFields(b) ==>
              && b.originalPrice.Some? && b.originalPrice.value != 0
              && b.discountedPrice.Some? && b.discountedPrice.value != 0
              && b.title.Some? && b.title.value != "" && b.subtitle.Some? && b.subtitle.value != ""
              && b.imageUrl.Some? && b.imageUrl.value != "" && b.shopUrl.Some? && b.shopUrl.value != ""
              && b.endDate.Some? && b.endDate.value != ""
  {
    && TruthyText(b.title) && TruthyText(b.imageUrl) && TruthyText(b.subtitle)
    && TruthyNumber(b.originalPrice) && TruthyNumber(b.discountedPrice)
    && TruthyText(b.shopUrl) && TruthyText(b.endDate)
  }

  /** A deal whose price is 0 never reaches the database, although the
      schema allows it. */
  lemma ZeroPriceRejected(b: DealInput)
    requires b.originalPrice == Some(0) || b.discountedPrice == Some(0)
    ensures !HasRequiredFields(b)
  {
  }

  /** The schema's `min: 0` on both prices. */
  predicate PricesInRange(b: DealInput)
    requires HasRequiredFields(b)
  {
    b.originalPrice.value >= 0 && b.discountedPrice.value >= 0
  }

  /** `Deal.create(body)`: `isActive` defaults to true and `startDate` to
      the current instant `now`. */
  function CreateDeal(b: DealInput, id: string, now: int): (d: Deal)
    requires HasRequiredFields(b)
    ensures d.id == id && d.title == b.title.value && d.subtitle == b.subtitle.value
    ensures d.imageUrl == b.imageUrl.value && d.shopUrl == b.shopUrl.value
    ensures d.originalPrice == b.originalPrice.value && d.discountedPrice == b.discountedPrice.value
    ensures d.isActive == b.isActive.GetOr(true) && d.startDate == b.startDate.GetOr(now)
    ensures d.endDate == b.endDate.value
  {
    Deal(id, b.imageUrl.value, b.title.value, b.subtitle.value, b.originalPrice.value,
         b.discountedPrice.value, b.shopUrl.value, b.isActive.GetOr(true),
         b.startDate.GetOr(now), b.endDate.value)
  }

  /** A `$set` update: the fields to overwrite. */
  datatype DealPatch = DealPatch(
    imageUrl: Option<string>,
    title: Option<string>,
    subtitle: Option<string>,
    originalPrice: Option<int>,
    discountedPrice: Option<int>,
    shopUrl: Option<string>,
    isActive: Option<bool>,
    startDate: Option<int>,
    endDate: Option<string>)

  /** The update validators: a required text field may not be set empty and
      a price may not be set negative. */
  predicate PatchValid(p: DealPatch) {
    && (p.imageUrl.Some? ==> p.imageUrl.value != "")
    && (p.title.Some? ==> p.title.value != "")
    && (p.subtitle.Some? ==> p.subtitle.value != "")
    && (p.shopUrl.Some? ==> p.shopUrl.value != "")
    && (p.endDate.Some? ==> p.endDate.value != "")
    && (p.originalPrice.Some? ==> p.originalPrice.value >= 0)
    && (p.discountedPrice.Some? ==> p.discountedPrice.value >= 0)
  }

  /** `{ $set: body }`: the fields present overwrite, the rest are kept. */
  function ApplyPatch(d: Deal, p: DealPatch): (r: Deal)
    ensures r.id == d.id && r.startDate == p.startDate.GetOr(d.startDate)
    ensures r.title == p.title.GetOr(d.title) && r.subtitle == p.subtitle.GetOr(d.subtitle)
    ensures r.imageUrl == p.imageUrl.GetOr(d.imageUrl) && r.shopUrl == p.shopUrl.GetOr(d.shopUrl)
    ensures r.originalPrice == p.originalPrice.GetOr(d.originalPrice)
    ensures r.discountedPrice == p.discountedPrice.GetOr(d.discountedPrice)
    ensures r.isActive == p.isActive.GetOr(d.isActive) && r.endDate == p.endDate.GetOr(d.endDate)
  {
    d.(imageUrl := p.imageUrl.GetOr(d.imageUrl), title := p.title.GetOr(d.title),
       subtitle := p.subtitle.GetOr(d.subtitle), originalPrice := p.originalPrice.GetOr(d.originalPrice),
       discountedPrice := p.discountedPrice.GetOr(d.discountedPrice), shopUrl := p.shopUrl.GetOr(d.shopUrl),
       isActive := p.isActive.GetOr(d.isActive), startDate := p.startDate.GetOr(d.startDate), endDate := p.endDate.GetOr(d.endDate))
  }

  /** An empty update changes nothing. */
  lemma EmptyPatchIdentity(d: Deal)
    ensures ApplyPatch(d, DealPatch(None, None, None, None, None, None, None, None, None)) == d
  {
  }

  /** A valid update keeps a well-formed deal well-formed. */
  predicate DealWellFormed(d: Deal) {
    && d.imageUrl != "" && d.title != "" && d.subtitle != "" && d.shopUrl != ""
    && d.endDate != "" && d.originalPrice >= 0 && d.discountedPrice >= 0
  }

  lemma ValidPatchKeepsWellFormed(d: Deal, p: DealPatch)
    requires DealWellFormed(d) && PatchValid(p)
    ensures DealWellFormed(ApplyPatch(d, p))
  {
  }

  /** The position of the deal with this id, if stored. */
  function IndexOf(deals: seq<Deal>, id: string): (r: Option<nat>)
    ensures r.Some? ==> r.value < |deals| && deals[r.value].id == id
    ensures r.None? ==> forall i :: 0 <= i < |deals| ==> deals[i].id != id
  {
    if deals == [] then None
    else if deals[0].id == id then Some(0)
    else match IndexOf(deals[1..], id)
      case Some(i) => Some(i + 1)
      case None => None
  }

  class DealCollection {
    /** The stored deals. */
    var deals: seq<Deal>

    ghost predicate Valid()
      reads this
    {
      forall i, j :: 0 <= i < j < |deals| ==> deals[i].id != deals[j].id
    }

    constructor ()
      ensures Valid() && deals == []
    {
      deals := [];
    }

    /** `POST /api/deals`: 400 when a required field is missing or falsy,
        500 when the schema refuses a negative price, and otherwise the new
        deal, stored under `newId`, with 201. */
    method Post(body: DealInput, newId: string, now: int) returns (status: int, created: Option<Deal>)
      requires Valid() && forall i :: 0 <= i < |deals| ==> deals[i].id != newId
      modifies this
      ensures Valid()
      ensures !HasRequiredFields(body) ==> status == 400 && created.None? && deals == old(deals)
      ensures HasRequiredFields(body) && !PricesInRange(body) ==>
                status == 500 && created.None? && deals == old(deals)
      ensures HasRequiredFields(body) && PricesInRange(body) ==>
                && status == 201
                && created == Some(CreateDeal(body, newId, now))
                && deals == old(deals) + [created.value]
    {
      if !HasRequiredFields(body) {
        return 400, None;
      }
      if !PricesInRange(body) {
        return 500, None;
      }
      var d := CreateDeal(body, newId, now);
      deals := deals + [d];
      return 201, Some(d);
    }

    /** `PUT /api/deals?id=…`: 400 without an id, 500 when the update
        validators refuse the body, 404 for an unknown id, and otherwise
        the updated deal in place. */
    method Put(id: Option<string>, patch: DealPatch) returns (status: int, updated: Option<Deal>)
      requires Valid()
      modifies this
      ensures Valid()
      ensures !TruthyText(id) ==> status == 400 && updated.None? && deals == old(deals)
      ensures TruthyText(id) && !PatchValid(patch) ==> status == 500 && updated.None? && deals == old(deals)
      ensures TruthyText(id) && PatchValid(patch) && IndexOf(old(deals), id.value).None? ==>
                status == 404 && updated.None? && deals == old(deals)
      ensures TruthyText(id) && PatchValid(patch) && IndexOf(old(deals), id.value).Some? ==>
                var i := IndexOf(old(deals), id.value).value;
                && status == 200
                && updated == Some(ApplyPatch(old(deals)[i], patch))
                && deals == old(deals)[i := updated.value]
    {
      if !TruthyText(id) {
        return 400, None;
      }
      if !PatchValid(patch) {
        return 500, None;
      }
      var found := IndexOf(deals, id.value);
      if found.None? {
        return 404, None;
      }
      var i := found.value;
      var d := ApplyPatch(deals[i], patch);
      deals := deals[i := d];
      return 200, Some(d);
    }

    /** `DELETE /api/deals?id=…`: 400 without an id, 404 for an unknown id,
        and otherwise the deal removed with 200. */
    method Delete(id: Option<string>) returns (status: int)
      requires Valid()
      modifies this
      ensures Valid()
      ensures !TruthyText(id) ==> status == 400 && deals == old(deals)
      ensures TruthyText(id) && IndexOf(old(deals), id.value).None? ==> status == 404 && deals == old(deals)
      ensures TruthyText(id) && IndexOf(old(deals), id.value).Some? ==>
                var i := IndexOf(old(deals), id.value).value;
                status == 200 && deals == old(deals)[..i] + old(deals)[i + 1..]
      ensures forall k :: 0 <= k < |deals| ==> deals[k] in old(deals) && (TruthyText(id) ==> deals[k].id != id.value)
    {
      if !TruthyText(id) {
        return 400;
      }
      var found := IndexOf(deals, id.value);
      if found.None? {
        return 404;
      }
      var i := found.value;
      deals := deals[..i] + deals[i + 1..];
      return 200;
    }
  }
}

=== FILE: edit_brand_card_form.dfy ===
/** The edit form for a stored BrandCard: a missing brand list is handled
    as an empty one. */
module EditBrandCardForm {
  import opened Common
  import opened ComponentTypes
  import opened FormEdits

  /** `component.brands || []`. */
  function BrandsOf(c: Component): seq<Brand> {
    c.brands.GetOr([])
  }

  /** `addNewBrand`: the existing brands, or none, plus one with all five
      fields empty. */
  function AddBrand(c: Component): (r: Component)
    ensures r.brands.Some? && |r.brands.value| == |BrandsOf(c)| + 1
    ensures r.brands.value[..|BrandsOf(c)|] == BrandsOf(c)
    ensures forall f :: BrandGet(r.brands.value[|BrandsOf(c)|], f) == Some("")
    ensures r.(brands := c.brands) == c
  {
    c.(brands := Some(BrandsOf(c) + [BlankBrand]))
  }

  /** `removeBrand(index)`: only the brand at `index` dropped. */
  function RemoveBrand(c: Component, index: int): (r: Component)
    ensures r.brands.Some?
    ensures 0 <= index < |BrandsOf(c)| ==> |r.brands.value| == |BrandsOf(c)| - 1
    ensures !(0 <= index < |BrandsOf(c)|) ==> r.brands.value == BrandsOf(c)
    ensures forall j :: 0 <= j < |r.brands.value| ==>
              r.brands.value[j] == BrandsOf(c)[if 0 <= index <= j then j + 1 else j]
    ensures r.(brands := c.brands) == c
  {
    c.(brands := Some(WithoutIndex(BrandsOf(c), index)))
  }

  /** `updateBrand(index, field, value)` on a rendered brand. */
  function UpdateBrand(c: Component, index: nat, f: BrandField, v: string): (r: Component)
    requires index < |BrandsOf(c)|
    ensures r.brands.Some? && |r.brands.value| == |BrandsOf(c)|
    ensures BrandGet(r.brands.value[index], f) == Some(v)
    ensures forall g :: g != f ==> BrandGet(r.brands.value[index], g) == BrandGet(BrandsOf(c)[index], g)
    ensures forall j :: 0 <= j < |BrandsOf(c)| && j != index ==> r.brands.value[j] == BrandsOf(c)[j]
    ensures r.(brands := c.brands) == c
  {
    var brands := BrandsOf(c);
    c.(brands := Some(brands[index := SetBrandField(brands[index], f, v)]))
  }

  /** With removal offered only for two or more brands, the form cannot
      remove the last one. */
  lemma RemoveNeverEmpties(c: Component, index: nat)
    requires index < |BrandsOf(c)| && RemoveOffered(|BrandsOf(c)|)
    ensures |RemoveBrand(c, index).brands.value| >= 1
  {
  }
}

=== FILE: edit_reusable_banner_form.dfy ===
/** The edit form for a stored ReusableBanner: a missing banner list is
    handled as an empty one, and the order input takes a parsed integer. */
module EditReusableBannerForm {
  import opened Common
  import opened ComponentTypes
  import opened FormEdits
  import JsNumbers

  /** `component.banners || []`. */
  function BannersOf(c: Component): seq<Banner> {
    c.banners.GetOr([])
  }

  /** `addNewBanner`: the existing banners, or none, plus one blank one. */
  function AddBanner(c: Component): (r: Component)
    ensures r.banners.Some? && |r.banners.value| == |BannersOf(c)| + 1
    ensures r.banners.value[..|BannersOf(c)|] == BannersOf(c)
    ensures r.banners.value[|BannersOf(c)|] == BlankBanner
    ensures r.(banners := c.banners) == c
  {
    c.(banners := Some(BannersOf(c) + [BlankBanner]))
  }

  /** `removeBanner(index)`: only the banner at `index` dropped. */
  function RemoveBanner(c: Component, index: int): (r: Component)
    ensures r.banners.Some?
    ensures 0 <= index < |BannersOf(c)| ==> |r.banners.value| == |BannersOf(c)| - 1
    ensures !(0 <= index < |BannersOf(c)|) ==> r.banners.value == BannersOf(c)
    ensures forall j :: 0 <= j < |r.banners.value| ==>
              r.banners.value[j] == BannersOf(c)[if 0 <= index <= j then j + 1 else j]
    ensures r.(banners := c.banners) == c
  {
    c.(banners := Some(WithoutIndex(BannersOf(c), index)))
  }

  /** `updateBanner(index, field, value)` on a rendered banner. */
  function UpdateBanner(c: Component, index: nat, f: BannerField, v: string): (r: Component)
    requires index < |BannersOf(c)|
    ensures r.banners.Some? && |r.banners.value| == |BannersOf(c)|
    ensures BannerGet(r.banners.value[index], f) == v
    ensures forall g :: g != f ==> BannerGet(r.banners.value[index], g) == BannerGet(BannersOf(c)[index], g)
    ensures forall j :: 0 <= j < |BannersOf(c)| && j != index ==> r.banners.value[j] == BannersOf(c)[j]
    ensures r.(banners := c.banners) == c
  {
    var banners := BannersOf(c);
    c.(banners := Some(banners[index := SetBannerField(banners[index], f, v)]))
  }

  /** `parseInt(text) || 0`: NaN, and 0 itself, give 0. */
  function OrderFromText(text: string): (r: int)
    ensures JsNumbers.ParseInt(text).None? ==> r == 0
    ensures forall i :: text == JsNumbers.IntToString(i) ==> r == i
  {
    assert forall i :: text == JsNumbers.IntToString(i) ==> JsNumbers.ParseInt(text) == Some(i) by {
      forall i | text == JsNumbers.IntToString(i) ensures JsNumbers.ParseInt(text) == Some(i) {
        JsNumbers.ParseIntToString(i);
      }
    }
    match JsNumbers.ParseInt(text)
    case Some(n) => n
    case None => 0
  }

  /** The order input: the integer the text starts with, or 0 when it does
      not start with one; everything but `order` is kept. */
  function SetOrder(c: Component, text: string): (r: Component)
    ensures JsNumbers.ParseInt(text).Some? ==> r.order == JsNumbers.ParseInt(text).value
    ensures JsNumbers.ParseInt(text).None? ==> r.order == 0
    ensures r.(order := c.order) == c
  {
    c.(order := OrderFromText(text))
  }

  /** The order input shows `order` as decimal text; reading that text back
      gives the same order. */
  lemma OrderTextRoundTrip(c: Component)
    ensures SetOrder(c, JsNumbers.IntToString(c.order)) == c
  {
    JsNumbers.ParseIntToString(c.order);
  }

  /** Text that is not a number leaves order 0. */
  lemma OrderFromBlankText()
    ensures OrderFromText("") == 0
    ensures OrderFromText("abc") == 0
  {
  }

  /** With removal offered only for two or more banners, the form cannot
      remove the last one. */
  lemma RemoveNeverEmpties(c: Component, index: nat)
    requires index < |BannersOf(c)| && RemoveOffered(|BannersOf(c)|)
    ensures |RemoveBanner(c, index).banners.value| >= 1
  {
  }
}

=== FILE: form_edits.dfy ===
/** The list and field edits the component forms share: dropping one entry
    by position, and writing one field of a banner or brand. */
module FormEdits {
  import opened Common
  import opened ComponentTypes

  /** `s.filter((_, i) => i !== index)`: an index outside the list drops
      nothing. */
  function WithoutIndex<T>(s: seq<T>, index: int): (r: seq<T>)
    ensures 0 <= index < |s| ==> r == s[..index] + s[index + 1..]
    ensures !(0 <= index < |s|) ==> r == s
    decreases |s|
  {
    if s == [] then []
    else
      var rest := WithoutIndex(s[1..], index - 1);
      assert s == [s[0]] + s[1..];
      if index == 0 then rest else [s[0]] + rest
  }

  /** The editable fields of a banner (`keyof Banner`). */
  datatype BannerField = ImageUrl | ClickUrl | Title

  function BannerGet(b: Banner, f: BannerField): string {
    match f
    case ImageUrl => b.imageUrl
    case ClickUrl => b.clickUrl
    case Title => b.title
  }

  /** `{ ...banner, [field]: value }`. */
  function SetBannerField(b: Banner, f: BannerField, v: string): (r: Banner)
    ensures BannerGet(r, f) == v
    ensures forall g :: g != f ==> BannerGet(r, g) == BannerGet(b, g)
  {
    match f
    case ImageUrl => b.(imageUrl := v)
    case ClickUrl => b.(clickUrl := v)
    case Title => b.(title := v)
  }

  /** The editable fields of a brand (`keyof Brand`). */
  datatype BrandField = LogoUrl | BrandClickUrl | BrandTitle | Tag | ButtonText

  /** A field's text; an absent tag reads as nothing. */
  function BrandGet(b: Brand, f: BrandField): Option<string> {
    match f
    case LogoUrl => Some(b.logoUrl)
    case BrandClickUrl => Some(b.clickUrl)
    case BrandTitle => Some(b.title)
    case Tag => b.tag
    case ButtonText => Some(b.buttonText)
  }

  /** `{ ...brand, [field]: value }`. */
  function SetBrandField(b: Brand, f: BrandField, v: string): (r: Brand)
    ensures BrandGet(r, f) == Some(v)
    ensures forall g :: g != f ==> BrandGet(r, g) == BrandGet(b, g)
  {
    match f
    case LogoUrl => b.(logoUrl := v)
    case BrandClickUrl => b.(clickUrl := v)
    case BrandTitle => b.(title := v)
    case Tag => b.(tag := Some(v))
    case ButtonText => b.(buttonText := v)
  }

  /** A banner with every field empty. */
  const BlankBanner := Banner("", "", "")

  /** A brand with all five fields empty, the tag included. */
  const BlankBrand := Brand("", "", "", Some(""), "")

  /** The remove button is rendered only while more than one entry exists. */
  predicate RemoveOffered(count: int) {
    count > 1
  }

  /** Removing through an offered button never empties the list. */
  lemma RemoveKeepsOne<T>(s: seq<T>, index: int)
    requires RemoveOffered(|s|)
    ensures |WithoutIndex(s, index)| >= 1
  {
  }

  /** The section-title input of both edit forms. */
  function SetTitle(c: Component, title: string): (r: Component)
    ensures r.title == title
    ensures r.(title := c.title) == c
  {
    c.(title := title)
  }
}

=== FILE: homesection.dfy ===
/** The home-section document: a title, one of three section types, a sort
    order, an active flag that defaults to true, and the payload of its type.
    Saving first validates the schema, then runs the pre-save check. */
module HomeSection {
  import opened Common

  datatype SectionBrand = SectionBrand(logoUrl: Option<string>, tag: Option<string>, buttonText: Option<string>, actionUrl: Option<string>)

  datatype SectionBanner = SectionBanner(imageUrl: Option<string>, buttonText: Option<string>, actionUrl: Option<string>)

  datatype SingleBanner = SingleBanner(imageUrl: Option<string>, actionUrl: Option<string>)

  /** A section as handed to `save()`; the arrays default to []. */
  datatype Section = Section(
    title: Option<string>,
    kind: Option<string>,
    sortOrder: Option<int>,
    isActive: Option<bool>,
    brands: seq<SectionBrand>,
    banners: seq<SectionBanner>,
    singleBanner: Option<SingleBanner>)

  /** A section as stored: the active flag always has a value. */
  datatype StoredSection = StoredSection(
    title: string,
    kind: string,
    sortOrder: int,
    isActive: bool,
    brands: seq<SectionBrand>,
    banners: seq<SectionBanner>,
    singleBanner: Option<SingleBanner>)

  datatype SaveError = ValidationError | PreSaveError(message: string)

  datatype SaveResult = Saved(section: StoredSection) | Rejected(error: SaveError)

  /** A required string path (no `trim`): present and not "". */
  predicate Required(v: Option<string>) {
    v.Some? && v.value != ""
  }

  predicate IsSectionType(k: string) {
    k == "BRAND_CARDS" || k == "BANNER_CARDS" || k == "SINGLE_BANNER"
  }

  /** The schema's own validation of every path and sub-document. */
  predicate SchemaValid(s: Section)
    ensures SchemaValid(s) ==> s.title.Some? && s.title.value != "" && s.sortOrder.Some?
    ensures SchemaValid(s) ==> s.kind.Some? && IsSectionType(s.kind.value)
  {
    && Required(s.title)
    && s.kind.Some? && IsSectionType(s.kind.value)
    && s.sortOrder.Some?
    && (forall i :: 0 <= i < |s.brands| ==>
          Required(s.brands[i].logoUrl) && Required(s.brands[i].buttonText) && Required(s.brands[i].actionUrl))
    && (forall i :: 0 <= i < |s.banners| ==>
          Required(s.banners[i].imageUrl) && Required(s.banners[i].buttonText) && Required(s.banners[i].actionUrl))
    && (s.singleBanner.Some? ==> Required(s.singleBanner.value.imageUrl) && Required(s.singleBanner.value.actionUrl))
  }

  /** The pre-save hook: a switch on the type that checks only that type's
      payload; `None` means the hook calls `next()`. */
  function PreSaveCheck(s: Section): (r: Option<string>)
    ensures r.None? <==>
              && (s.kind == Some("BRAND_CARDS") ==> |s.brands| > 0)
              && (s.kind == Some("BANNER_CARDS") ==> |s.banners| > 0)
              && (s.kind == Some("SINGLE_BANNER") ==> s.singleBanner.Some?)
    ensures r.Some? ==> s.kind.Some? && IsSectionType(s.kind.value)
  {
    match s.kind
    case Some("BRAND_CARDS") =>
      if |s.brands| == 0 then Some("Brands array is required for BRAND_CARDS type") else None
    case Some("BANNER_CARDS") =>
      if |s.banners| == 0 then Some("Banners array is required for BANNER_CARDS type") else None
    case Some("SINGLE_BANNER") =>
      if s.singleBanner.None? then Some("Single banner data is required for SINGLE_BANNER type") else None
    case _ => None
  }

  /** `save()`: validation, then the pre-save hook, then the stored document
      with `isActive` defaulted to true. */
  function Save(s: Section): (r: SaveResult)
    ensures r.Saved? <==> SchemaValid(s) && PreSaveCheck(s).None?
    ensures r.Saved? ==> r.section.isActive == s.isActive.GetOr(true)
    ensures r.Rejected? && SchemaValid(s) ==> r.error.PreSaveError?
  {
    if !SchemaValid(s) then Rejected(ValidationError)
    else match PreSaveCheck(s)
      case Some(message) => Rejected(PreSaveError(message))
      case None =>
        Saved(StoredSection(s.title.value, s.kind.value, s.sortOrder.value, s.isActive.GetOr(true),
                            s.brands, s.banners, s.singleBanner))
  }

  /** A saved section carries the payload of its type: brands for
      BRAND_CARDS, banners for BANNER_CARDS, a single banner for SINGLE_BANNER. */
  lemma SavedHasPayload(s: Section)
    requires Save(s).Saved?
    ensures s.kind == Some("BRAND_CARDS") ==> |Save(s).section.brands| > 0
    ensures s.kind == Some("BANNER_CARDS") ==> |Save(s).section.banners| > 0
    ensures s.kind == Some("SINGLE_BANNER") ==> Save(s).section.singleBanner.Some?
    ensures Save(s).section.title != "" && IsSectionType(Save(s).section.kind)
  {
  }

  /** The pre-save check of a type does not look at the other types' payloads. */
  lemma PreSaveIgnoresOtherPayloads(s: Section, brands: seq<SectionBrand>, banners: seq<SectionBanner>, single: Option<SingleBanner>)
    ensures s.kind == Some("BRAND_CARDS") ==> PreSaveCheck(s) == PreSaveCheck(s.(banners := banners, singleBanner := single))
    ensures s.kind == Some("BANNER_CARDS") ==> PreSaveCheck(s) == PreSaveCheck(s.(brands := brands, singleBanner := single))
    ensures s.kind == Some("SINGLE_BANNER") ==> PreSaveCheck(s) == PreSaveCheck(s.(brands := brands, banners := banners))
  {
  }
}

=== FILE: js_numbers.dfy ===
/** The JavaScript number operations the dashboard uses on integers:
    the `%` operator, `Math.ceil(a / b)`, `parseInt` and the decimal
    text of an integer. Floating-point fractions are not modelled. */
module JsNumbers {
  import opened Common
  import Strings

  /** A JavaScript number as far as integer arithmetic can produce one. */
  datatype JsNumber = Finite(n: int) | PositiveInfinity | NegativeInfinity | NaN

  /** `a % n`: the remainder truncates toward zero, so it takes the sign of
      `a`, unlike Dafny's Euclidean `%`. */
  function JsRem(a: int, n: int): (r: int)
    requires n != 0
    ensures a >= 0 ==> 0 <= r < (if n > 0 then n else -n)
    ensures a < 0 ==> -(if n > 0 then n else -n) < r <= 0
  {
    var m := if n > 0 then n else -n;
    if a >= 0 then a % m else -((-a) % m)
  }

  /** On a non-negative dividend JavaScript's and Dafny's `%` agree. */
  lemma JsRemNonNegative(a: int, n: int)
    requires a >= 0 && n > 0
    ensures JsRem(a, n) == a % n
  {
  }

  /** `Math.ceil(a / b)` for integers; division by zero yields an infinity,
      or NaN for 0 / 0. */
  function CeilDiv(a: int, b: int): (r: JsNumber)
    ensures b != 0 ==> r.Finite?
    ensures b > 0 ==> (r.n - 1) * b < a <= r.n * b
  {
    if b > 0 then Finite(-((-a) / b))
    else if b < 0 then Finite(-(a / -b))
    else if a > 0 then PositiveInfinity
    else if a < 0 then NegativeInfinity
    else NaN
  }

  function DigitValue(c: char, radix: nat): Option<nat> {
    if '0' <= c <= '9' && (c as int - '0' as int) < radix then Some(c as int - '0' as int)
    else if 'a' <= c <= 'z' && (c as int - 'a' as int) + 10 < radix then Some(c as int - 'a' as int + 10)
    else if 'A' <= c <= 'Z' && (c as int - 'A' as int) + 10 < radix then Some(c as int - 'A' as int + 10)
    else None
  }

  /** The longest prefix of `s` made of digits in the radix. */
  function LeadingDigits(s: string, radix: nat): (d: string)
    ensures d <= s
    ensures forall i :: 0 <= i < |d| ==> DigitValue(d[i], radix).Some?
    decreases |s|
  {
    if s != [] && DigitValue(s[0], radix).Some? then [s[0]] + LeadingDigits(s[1..], radix) else []
  }

  /** Value of a string of digits, most significant first. */
  function DigitsValue(d: string, radix: nat): nat
    requires forall i :: 0 <= i < |d| ==> DigitValue(d[i], radix).Some?
    decreases |d|
  {
    if d == [] then 0
    else
      var init := d[..|d| - 1];
      assert forall i :: 0 <= i < |init| ==> init[i] == d[i];
      var high: nat := DigitsValue(init, radix);
      var scaled: nat := high * radix;
      scaled + DigitValue(d[|d| - 1], radix).value
  }

  /** The unsigned part of `parseInt`: a `0x` or `0X` prefix selects
      hexadecimal, then the longest run of digits is read; `None` when there
      is no digit. */
  function ParseUnsigned(body: string): Option<nat> {
    var hex := |body| >= 2 && body[0] == '0' && (body[1] == 'x' || body[1] == 'X');
    var radix := if hex then 16 else 10;
    var digits := LeadingDigits(if hex then body[2..] else body, radix);
    if digits == [] then None else Some(DigitsValue(digits, radix))
  }

  function Signed(negative: bool, magnitude: Option<nat>): Option<int> {
    match magnitude
    case None => None
    case Some(v) => Some(if negative then -(v as int) else v as int)
  }

  /** `parseInt(s)` with no radix argument: leading whitespace is skipped and
      one sign is read before the unsigned part. `None` stands for `NaN`. */
  function ParseInt(s: string): (r: Option<int>)
    ensures Strings.TrimStart(s) == [] ==> r.None?
  {
    var t := Strings.TrimStart(s);
    if |t| > 0 && (t[0] == '-' || t[0] == '+') then Signed(t[0] == '-', ParseUnsigned(t[1..]))
    else Signed(false, ParseUnsigned(t))
  }

  function DigitChar(d: nat): char
    requires d < 10
  {
    ('0' as int + d) as char
  }

  /** The decimal text of a natural number, as `String(n)` writes it for
      integers below 1e21. */
  function NatToString(n: nat): (s: string)
    ensures |s| >= 1
    ensures forall i :: 0 <= i < |s| ==> '0' <= s[i] <= '9'
    ensures |s| > 1 ==> s[0] != '0'
    decreases n
  {
    if n < 10 then [DigitChar(n)] else NatToString(n / 10) + [DigitChar(n % 10)]
  }

  /** The decimal text of an integer, with a leading `-` when negative. */
  function IntToString(i: int): string {
    if i < 0 then "-" + NatToString(-i) else NatToString(i)
  }

  lemma {:induction false} NatToStringValue(n: nat)
    ensures forall i :: 0 <= i < |NatToString(n)| ==> DigitValue(NatToString(n)[i], 10).Some?
    ensures DigitsValue(NatToString(n), 10) == n
    decreases n
  {
    if n >= 10 {
      NatToStringValue(n / 10);
      var s := NatToString(n);
      assert s[..|s| - 1] == NatToString(n / 10);
    }
  }

  lemma {:induction false} LeadingDigitsAll(s: string, radix: nat)
    requires forall i :: 0 <= i < |s| ==> DigitValue(s[i], radix).Some?
    ensures LeadingDigits(s, radix) == s
    decreases |s|
  {
    if s != [] {
      LeadingDigitsAll(s[1..], radix);
      assert [s[0]] + s[1..] == s;
    }
  }

  lemma ParseUnsignedDigits(m: nat)
    ensures ParseUnsigned(NatToString(m)) == Some(m)
  {
    var digits := NatToString(m);
    NatToStringValue(m);
    LeadingDigitsAll(digits, 10);
  }

  lemma ParseNatToString(m: nat)
    ensures ParseInt(NatToString(m)) == Some(m as int)
  {
    var s := NatToString(m);
    assert '0' <= s[0] <= '9';
    assert Strings.TrimStart(s) == s;
    ParseUnsignedDigits(m);
  }

  lemma ParseNegativeToString(m: nat)
    requires m > 0
    ensures ParseInt("-" + NatToString(m)) == Some(-(m as int))
  {
    var s := "-" + NatToString(m);
    assert s[0] == '-';
    assert Strings.TrimStart(s) == s;
    assert s[1..] == NatToString(m);
    ParseUnsignedDigits(m);
  }

  /** Reading back the decimal text of an integer gives the integer. */
  lemma ParseIntToString(i: int)
    ensures ParseInt(IntToString(i)) == Some(i)
  {
    if i < 0 {
      ParseNegativeToString(-i);
    } else {
      ParseNatToString(i);
    }
  }
}

=== FILE: reorder_roundtrip.dfy ===
/** The drag-and-drop round trip: the dashboard moves one card, sends the
    renumbered `(id, order)` pairs, the reorder route writes them, and the
    sorted listing it answers with is exactly the list the dashboard shows. */
module ReorderRoundTrip {
  import opened Common
  import opened ComponentTypes
  import opened ComponentOrdering
  import opened ComponentsApi

  /** Every element of `s` passed through `f`, in order. */
  function MapSeq<A, B>(f: A -> B, s: seq<A>): (r: seq<B>)
    ensures |r| == |s|
    ensures forall i :: 0 <= i < |s| ==> r[i] == f(s[i])
  {
    seq(|s|, i requires 0 <= i < |s| => f(s[i]))
  }

  /** Taking out the element at `i` takes one occurrence out of the multiset. */
  lemma RemoveOne<T>(s: seq<T>, i: nat)
    requires i < |s|
    ensures multiset(s) == multiset{s[i]} + multiset(RemoveAt(s, i))
  {
    assert s == s[..i] + [s[i]] + s[i + 1..];
    forall v
      ensures multiset(s)[v] == (multiset{s[i]} + multiset(RemoveAt(s, i)))[v]
    {
    }
  }

  /** Mapping two sequences that hold the same elements yields two
      sequences that hold the same elements. */
  lemma {:induction false} MapMultiset<A, B>(f: A -> B, a: seq<A>, b: seq<A>)
    requires multiset(a) == multiset(b)
    ensures multiset(MapSeq(f, a)) == multiset(MapSeq(f, b))
    decreases |a|
  {
    if a == [] {
      assert |b| == |multiset(b)| == 0;
    } else {
      assert a[0] in multiset(b);
      var i :| 0 <= i < |b| && b[i] == a[0];
      RemoveOne(a, 0);
      RemoveOne(b, i);
      MultisetCancel(multiset(RemoveAt(a, 0)), multiset(RemoveAt(b, i)), a[0]);
      MapMultiset(f, RemoveAt(a, 0), RemoveAt(b, i));
      RemoveOne(MapSeq(f, a), 0);
      RemoveOne(MapSeq(f, b), i);
      assert RemoveAt(MapSeq(f, a), 0) == MapSeq(f, RemoveAt(a, 0));
      assert RemoveAt(MapSeq(f, b), i) == MapSeq(f, RemoveAt(b, i));
    }
  }

  /** Removing the same element from two equal multisets keeps them equal. */
  lemma MultisetCancel<T>(x: multiset<T>, y: multiset<T>, e: T)
    requires multiset{e} + x == multiset{e} + y
    ensures x == y
  {
    forall v
      ensures x[v] == y[v]
    {
      assert (multiset{e} + x)[v] == (multiset{e} + y)[v];
    }
  }

  /** In a sequence without repeated elements each element occurs once. */
  lemma {:induction false} DistinctOccursOnce<T>(a: seq<T>, x: T)
    requires forall i, j :: 0 <= i < j < |a| ==> a[i] != a[j]
    ensures multiset(a)[x] <= 1
  {
    if a != [] {
      assert a == [a[0]] + a[1..];
      DistinctOccursOnce(a[1..], x);
      if x == a[0] {
        assert x !in a[1..];
      }
    }
  }

  /** A rearrangement of components with distinct ids has distinct ids. */
  lemma SameMultisetDistinctIds(a: seq<Component>, b: seq<Component>)
    requires DistinctIds(a) && multiset(a) == multiset(b)
    ensures DistinctIds(b)
  {
    forall i, j | 0 <= i < j < |b|
      ensures b[i].id != b[j].id
    {
      assert b[i] in multiset(a) && b[j] in multiset(a);
      var p :| 0 <= p < |a| && a[p] == b[i];
      var q :| 0 <= q < |a| && a[q] == b[j];
      if b[i] == b[j] {
        assert b == b[..i] + [b[i]] + b[i + 1..j] + [b[j]] + b[j + 1..];
        assert multiset(b)[b[i]] >= 2;
        DistinctOccursOnce(a, b[i]);
        assert false;
      } else {
        assert p != q;
      }
    }
  }

  /** In a payload whose ids are distinct, the order written for an item's
      id is that item's order. */
  lemma {:induction false} LastOrderForPayload(t: seq<Component>, k: nat)
    requires DistinctIds(t) && k < |t|
    ensures LastOrderFor(Payload(t), t[k].id) == Some(t[k].order)
    decreases |t|
  {
    var n := |t|;
    assert Payload(t)[..n - 1] == Payload(t[..n - 1]);
    if k < n - 1 {
      assert t[n - 1].id != t[k].id;
      LastOrderForPayload(t[..n - 1], k);
    }
  }

  /** Two listings sorted by order that hold the same components are equal
      when the orders in one of them are all different. */
  lemma {:induction false} SortedUnique(a: seq<Component>, b: seq<Component>)
    requires SortedByOrder(a) && multiset(a) == multiset(b)
    requires forall i, j :: 0 <= i < j < |b| ==> b[i].order < b[j].order
    ensures a == b
    decreases |a|
  {
    if a == [] {
      assert |b| == |multiset(b)| == 0;
    } else {
      assert |b| == |multiset(b)| == |a|;
      assert a[0] in multiset(b) && b[0] in multiset(a);
      var k :| 0 <= k < |b| && b[k] == a[0];
      var m :| 0 <= m < |a| && a[m] == b[0];
      assert a[0].order <= a[m].order;
      assert k == 0;
      assert a == [a[0]] + a[1..] && b == [b[0]] + b[1..];
      assert multiset(a) == multiset{a[0]} + multiset(a[1..]);
      assert multiset(b) == multiset{a[0]} + multiset(b[1..]);
      MultisetCancel(multiset(a[1..]), multiset(b[1..]), a[0]);
      SortedUnique(a[1..], b[1..]);
    }
  }

  /** Stamping a component with the order the payload writes for its id. */
  function Stamp(updates: seq<OrderUpdate>): Component -> Component {
    (d: Component) => d.(order := LastOrderFor(updates, d.id).GetOr(d.order))
  }

  /** Applying the updates one after another stamps every stored component. */
  lemma WrittenIsStamped(docs: seq<Component>, updates: seq<OrderUpdate>)
    ensures ApplyUpdates(docs, updates) == MapSeq(Stamp(updates), docs)
  {
    var written := ApplyUpdates(docs, updates);
    forall j | 0 <= j < |docs|
      ensures written[j] == MapSeq(Stamp(updates), docs)[j]
    {
      ApplyUpdatesAt(docs, updates, j);
    }
  }

  /** Stamping a list with its own renumbered payload renumbers it. */
  lemma StampedIsRenumbered(moved: seq<Component>)
    requires DistinctIds(Renumber(moved))
    ensures MapSeq(Stamp(Payload(Renumber(moved))), moved) == Renumber(moved)
  {
    var target := Renumber(moved);
    forall k | 0 <= k < |moved|
      ensures MapSeq(Stamp(Payload(target)), moved)[k] == target[k]
    {
      LastOrderForPayload(target, k);
    }
  }

  /** When the dashboard shows the stored components in any arrangement
      and moves the card at `from` to `to`, writing the renumbered payload
      and listing the collection by order gives back exactly the list the
      dashboard now shows. */
  lemma ReorderListsWhatWasShown(docs: seq<Component>, shown: seq<Component>, from: nat, to: nat)
    requires DistinctIds(docs)
    requires multiset(shown) == multiset(docs)
    requires from < |shown| && to < |shown|
    ensures SortByOrder(ApplyUpdates(docs, Payload(Renumber(Move(shown, from, to))))) ==
            Renumber(Move(shown, from, to))
  {
    var moved := Move(shown, from, to);
    var target := Renumber(moved);
    var updates := Payload(target);
    var f := Stamp(updates);
    MovePermutes(shown, from, to);
    SameMultisetDistinctIds(docs, moved);
    assert DistinctIds(target) by {
      forall i, j | 0 <= i < j < |target| ensures target[i].id != target[j].id {
        assert target[i].id == moved[i].id && target[j].id == moved[j].id;
      }
    }
    var written := ApplyUpdates(docs, updates);
    assert multiset(written) == multiset(target) by {
      // The written collection is the stored one stamped element by element,
      // and the shown list stamped the same way is the renumbered list.
      WrittenIsStamped(docs, updates);
      StampedIsRenumbered(moved);
      MapMultiset(f, docs, moved);
    }
    SortedUnique(SortByOrder(written), target);
  }
}

=== FILE: reusable_banner_form.dfy ===
/** The creation form for a ReusableBanner: the handlers build a new form
    state from the old one, touching only the banner list or the title. */
module ReusableBannerForm {
  import opened ComponentTypes
  import opened FormEdits

  /** `addNewBanner`: one blank banner appended. */
  function AddBanner(c: NewComponent): (r: NewComponent)
    ensures |r.banners| == |c.banners| + 1
    ensures r.banners[..|c.banners|] == c.banners
    ensures r.banners[|c.banners|] == BlankBanner
    ensures r.(banners := c.banners) == c
  {
    c.(banners := c.banners + [BlankBanner])
  }

  /** `removeBanner(index)`: exactly the banner at `index` dropped. */
  function RemoveBanner(c: NewComponent, index: int): (r: NewComponent)
    ensures 0 <= index < |c.banners| ==> |r.banners| == |c.banners| - 1
    ensures !(0 <= index < |c.banners|) ==> r.banners == c.banners
    ensures forall j :: 0 <= j < |r.banners| ==>
              r.banners[j] == c.banners[if 0 <= index <= j then j + 1 else j]
    ensures r.(banners := c.banners) == c
  {
    c.(banners := WithoutIndex(c.banners, index))
  }

  /** `updateBanner(index, field, value)` on a rendered banner. */
  function UpdateBanner(c: NewComponent, index: nat, f: BannerField, v: string): (r: NewComponent)
    requires index < |c.banners|
    ensures |r.banners| == |c.banners|
    ensures BannerGet(r.banners[index], f) == v
    ensures forall g :: g != f ==> BannerGet(r.banners[index], g) == BannerGet(c.banners[index], g)
    ensures forall j :: 0 <= j < |c.banners| && j != index ==> r.banners[j] == c.banners[j]
    ensures r.(banners := c.banners) == c
  {
    c.(banners := c.banners[index := SetBannerField(c.banners[index], f, v)])
  }

  /** The section-title input. */
  function SetTitle(c: NewComponent, title: string): (r: NewComponent)
    ensures r.title == title
    ensures r.(title := c.title) == c
  {
    c.(title := title)
  }

  /** Only the entries the form renders can be removed, and their remove
      buttons exist only while there are two or more, so the form can never
      reach an empty banner list from a non-empty one. */
  lemma RemoveNeverEmpties(c: NewComponent, index: nat)
    requires index < |c.banners| && RemoveOffered(|c.banners|)
    ensures |RemoveBanner(c, index).banners| == |c.banners| - 1 >= 1
  {
  }
}

=== FILE: serverless_pagination.dfy ===
/** The paginated listing functions behind the public app (`getdeals` and
    `getshops`): both normalise page and limit, skip whole pages, and
    report the page count and whether there are neighbouring pages. */
module ServerlessPagination {
  import opened Common
  import opened JsNumbers

  /** The pagination block of an answer. */
  datatype PageInfo = PageInfo(
    currentPage: int,
    totalPages: int,
    totalDocs: nat,
    limit: int,
    hasNextPage: bool,
    hasPrevPage: bool)

  datatype PageResult<T> = PageResult(items: seq<T>, pagination: PageInfo)

  /** A query-string value that, when sent, starts with an integer. */
  predicate Numeric(v: Option<string>) {
    v.Some? ==> ParseInt(v.value).Some?
  }

  /** `Math.max(1, parseInt(v))`, with the parameter's default when absent. */
  function Normalise(v: Option<string>, default: int): (r: int)
    requires Numeric(v)
    ensures r >= 1
    ensures v.None? && default >= 1 ==> r == default
    ensures v.Some? ==> r == if ParseInt(v.value).value >= 1 then ParseInt(v.value).value else 1
  {
    var n := if v.Some? then ParseInt(v.value).value else default;
    if n >= 1 then n else 1
  }

  function Skip(pageNum: int, limitNum: int): int {
    (pageNum - 1) * limitNum
  }

  /** The page `pageNum` of `limitNum` documents, with its metadata. */
  function Paginate<T>(docs: seq<T>, pageNum: int, limitNum: int): (r: PageResult<T>)
    requires pageNum >= 1 && limitNum >= 1
    ensures r.pagination.currentPage == pageNum && r.pagination.limit == limitNum
    ensures r.pagination.totalDocs == |docs|
    ensures |r.items| <= limitNum
    ensures Skip(pageNum, limitNum) >= 0
    ensures Skip(pageNum, limitNum) + limitNum <= |docs| ==> |r.items| == limitNum
    ensures Skip(pageNum, limitNum) < |docs| < Skip(pageNum, limitNum) + limitNum ==>
              |r.items| == |docs| - Skip(pageNum, limitNum)
    ensures forall k :: 0 <= k < |r.items| ==>
              Skip(pageNum, limitNum) + k < |docs| && r.items[k] == docs[Skip(pageNum, limitNum) + k]
    ensures (r.pagination.totalPages - 1) * limitNum < |docs| <= r.pagination.totalPages * limitNum
    ensures r.pagination.hasNextPage <==> pageNum < r.pagination.totalPages
    ensures r.pagination.hasPrevPage <==> pageNum > 1
  {
    var skip := Skip(pageNum, limitNum);
    assert skip >= 0 by {
      assert (pageNum - 1) * limitNum >= 0 * limitNum;
    }
    var totalPages := CeilDiv(|docs|, limitNum).n;
    PageResult(Window(docs, skip, limitNum),
      PageInfo(pageNum, totalPages, |docs|, limitNum, pageNum < totalPages, pageNum > 1))
  }

  /** `fetchBannerss(page, limit)` and `fetchshops(page, limit)` over the
      collection's documents in their natural order. */
  function FetchPage<T>(docs: seq<T>, page: Option<string>, limit: Option<string>): PageResult<T>
    requires Numeric(page) && Numeric(limit)
  {
    Paginate(docs, Normalise(page, 1), Normalise(limit, 10))
  }

  /** Multiplying by a non-negative number keeps the order. */
  lemma MulMonotone(a: int, b: int, c: int)
    requires a <= b && c >= 0
    ensures a * c <= b * c
  {
  }

  /** A next page exists exactly when documents remain after this page, and
      a previous page exactly when this page skips any. */
  lemma NeighboursMatchDocuments<T>(docs: seq<T>, pageNum: int, limitNum: int)
    requires pageNum >= 1 && limitNum >= 1
    ensures var info := Paginate(docs, pageNum, limitNum).pagination;
            && (info.hasNextPage <==> Skip(pageNum, limitNum) + limitNum < |docs|)
            && (info.hasPrevPage <==> Skip(pageNum, limitNum) > 0)
  {
    var t := Paginate(docs, pageNum, limitNum).pagination.totalPages;
    assert Skip(pageNum, limitNum) + limitNum == pageNum * limitNum;
    if pageNum < t {
      MulMonotone(pageNum, t - 1, limitNum);
    } else {
      MulMonotone(t, pageNum, limitNum);
    }
    if pageNum > 1 {
      MulMonotone(1, pageNum - 1, limitNum);
    }
  }

  /** A page or limit sent as a decimal number is used as is when positive
      and raised to 1 otherwise. */
  lemma NormaliseDecimal(i: int, default: int)
    ensures Numeric(Some(IntToString(i)))
    ensures Normalise(Some(IntToString(i)), default) == if i >= 1 then i else 1
  {
    ParseIntToString(i);
  }

  /** The answer echoes the normalised page and limit, which are at least 1. */
  lemma FetchPageEchoesQuery<T>(docs: seq<T>, page: Option<string>, limit: Option<string>)
    requires Numeric(page) && Numeric(limit)
    ensures FetchPage(docs, page, limit).pagination.currentPage == Normalise(page, 1) >= 1
    ensures FetchPage(docs, page, limit).pagination.limit == Normalise(limit, 10) >= 1
    ensures FetchPage(docs, page, limit).pagination.totalDocs == |docs|
  {
  }

  /** Without query parameters the first ten documents are listed. */
  lemma DefaultsFirstTen<T>(docs: seq<T>)
    ensures FetchPage(docs, None, None).pagination.currentPage == 1
    ensures FetchPage(docs, None, None).pagination.limit == 10
    ensures FetchPage(docs, None, None).items == docs[..if |docs| < 10 then |docs| else 10]
  {
  }

  /** The function's reply. */
  datatype Reply<T> = Ok(body: PageResult<T>) | InternalError

  function StatusCode<T>(r: Reply<T>): int {
    if r.Ok? then 200 else 500
  }

  /** The Lambda handler: `page` and `limit` from the query string (no
      query string reads as none), 200 with the page, or 500 when the
      database cannot be reached. */
  function Handler<T>(query: Option<map<string, string>>, docs: Option<seq<T>>): (r: Reply<T>)
    requires query.Some? ==> Numeric(Lookup(query.value, "page")) && Numeric(Lookup(query.value, "limit"))
    ensures docs.None? <==> StatusCode(r) == 500
    ensures docs.Some? && query.None? ==> r == Ok(FetchPage(docs.value, None, None))
    ensures docs.Some? && query.Some? ==>
              r == Ok(FetchPage(docs.value, Lookup(query.value, "page"), Lookup(query.value, "limit")))
  {
    var params := query.GetOr(map[]);
    match docs
    case None => InternalError
    case Some(d) => Ok(FetchPage(d, Lookup(params, "page"), Lookup(params, "limit")))
  }

  function Lookup(params: map<string, string>, key: string): Option<string> {
    if key in params then Some(params[key]) else None
  }
}

=== FILE: shop_page.dfy ===
/** The shops page: categories are typed as one comma-separated text and
    stored as a list of trimmed names. */
module ShopPage {
  import opened Common
  import opened Strings

  datatype Shop = Shop(id: string, title: string, logo: string, url: string, category: seq<string>)

  /** The form's fields; `category` is the comma-separated text. */
  datatype ShopFormData = ShopFormData(title: string, logo: string, url: string, category: string)

  /** The body sent to create or update a shop. */
  datatype ShopBody = ShopBody(title: string, logo: string, url: string, category: seq<string>)

  /** `text.split(",").map(cat => cat.trim())`. */
  function SplitCategories(text: string): (cats: seq<string>)
    ensures |cats| == |Split(text, ',')|
    ensures forall i :: 0 <= i < |cats| ==> cats[i] == Trim(Split(text, ',')[i])
  {
    var parts := Split(text, ',');
    seq(|parts|, i requires 0 <= i < |parts| => Trim(parts[i]))
  }

  /** One category per comma, plus one; no category has whitespace at
      either end; an empty text gives a single empty category. */
  lemma SplitCategoriesShape(text: string)
    ensures |SplitCategories(text)| == Count(text, ',') + 1
    ensures forall i :: 0 <= i < |SplitCategories(text)| ==> IsTrimmed(SplitCategories(text)[i])
    ensures text == "" ==> SplitCategories(text) == [""]
  {
    SplitLength(text, ',');
    var parts := Split(text, ',');
    forall i | 0 <= i < |parts|
      ensures IsTrimmed(SplitCategories(text)[i])
    {
      TrimIsTrimmed(parts[i]);
    }
    if text == "" {
      assert Trim("") == "";
    }
  }

  /** The body `handleCreate` sends: the fields as typed, the category text
      split and trimmed. */
  function CreateBody(data: ShopFormData): (b: ShopBody)
    ensures b.title == data.title && b.logo == data.logo && b.url == data.url
    ensures b.category == SplitCategories(data.category)
  {
    ShopBody(data.title, data.logo, data.url, SplitCategories(data.category))
  }

  /** What `handleUpdate` sends: nothing without a selected shop, otherwise
      the selected shop's id with the same body a creation sends. */
  function UpdateRequest(selected: Option<Shop>, data: ShopFormData): (r: Option<(string, ShopBody)>)
    ensures r.None? <==> selected.None?
    ensures r.Some? ==> r.value.0 == selected.value.id && r.value.1 == CreateBody(data)
  {
    if selected.None? then None else Some((selected.value.id, CreateBody(data)))
  }

  /** `openEditDialog`: the stored categories joined with ", ". */
  function EditFormData(s: Shop): (f: ShopFormData)
    ensures f.title == s.title && f.logo == s.logo && f.url == s.url
    ensures f.category == Join(s.category, ", ")
  {
    ShopFormData(s.title, s.logo, s.url, Join(s.category, ", "))
  }

  /** Each entry with a space in front. */
  function Spaced(parts: seq<string>): (r: seq<string>)
    ensures |r| == |parts|
    ensures forall i :: 0 <= i < |parts| ==> r[i] == " " + parts[i]
  {
    seq(|parts|, i requires 0 <= i < |parts| => " " + parts[i])
  }

  /** Joining with ", " is joining with "," after putting a space in front
      of every entry but the first. */
  lemma {:induction false} JoinCommaSpace(parts: seq<string>)
    requires |parts| >= 1
    ensures " " + Join(parts, ", ") == Join(Spaced(parts), ",")
    decreases |parts|
  {
    if |parts| > 1 {
      JoinCommaSpace(parts[1..]);
      assert Spaced(parts)[1..] == Spaced(parts[1..]);
      assert " " + (parts[0] + ", " + Join(parts[1..], ", "))
          == (" " + parts[0]) + "," + (" " + Join(parts[1..], ", "));
    }
  }

  /** Opening a shop for editing and saving without changes sends back its
      categories, provided there is at least one and each is trimmed and
      free of commas. */
  lemma EditRoundTrip(s: Shop)
    requires |s.category| >= 1
    requires forall i :: 0 <= i < |s.category| ==> IsTrimmed(s.category[i]) && ',' !in s.category[i]
    ensures CreateBody(EditFormData(s)).category == s.category
  {
    var cats := s.category;
    var pieces := [cats[0]] + Spaced(cats[1..]);
    if |cats| > 1 {
      JoinCommaSpace(cats[1..]);
      assert Join(cats, ", ") == cats[0] + "," + (" " + Join(cats[1..], ", "));
      assert pieces[1..] == Spaced(cats[1..]);
    }
    assert Join(cats, ", ") == Join(pieces, ",");
    SplitJoin(pieces, ',');
    forall i | 0 <= i < |cats|
      ensures Trim(pieces[i]) == cats[i]
    {
      if i == 0 {
        TrimLeadingSpace("", cats[0]);
        assert "" + cats[0] == cats[0];
      } else {
        TrimLeadingSpace(" ", cats[i]);
      }
    }
  }

  /** A shop stored without categories comes back from the edit dialog with
      one empty category. */
  lemma EmptyCategoriesComeBackBlank(s: Shop)
    requires s.category == []
    ensures CreateBody(EditFormData(s)).category == [""]
  {
    SplitCategoriesShape("");
  }
}

=== FILE: strings.dfy ===
/** The JavaScript string operations the dashboard relies on: `split` on
    one character, `join`, `trim`, `toLowerCase` and `includes`. */
module Strings {

  /** The characters `String.prototype.trim` removes: ECMAScript's
      WhiteSpace and LineTerminator productions. */
  predicate IsWhitespace(c: char) {
    c == '\t' || c == '\n' || c == '\U{B}' || c == '\U{C}' || c == '\r' || c == ' '
    || c == '\U{A0}' || c == '\U{1680}' || ('\U{2000}' <= c <= '\U{200A}')
    || c == '\U{2028}' || c == '\U{2029}' || c == '\U{202F}' || c == '\U{205F}'
    || c == '\U{3000}' || c == '\U{FEFF}'
  }

  /** The characters a regular expression `.` does not match. */
  predicate IsLineTerminator(c: char) {
    c == '\n' || c == '\r' || c == '\U{2028}' || c == '\U{2029}'
  }

  /** `s.split(sep)` for a one-character separator. */
  function Split(s: string, sep: char): (parts: seq<string>)
    ensures |parts| >= 1
    ensures forall i :: 0 <= i < |parts| ==> sep !in parts[i]
    decreases |s|
  {
    if s == [] then [""]
    else if s[0] == sep then [""] + Split(s[1..], sep)
    else
      var rest := Split(s[1..], sep);
      [[s[0]] + rest[0]] + rest[1..]
  }

  /** `parts.join(sep)`. */
  function Join(parts: seq<string>, sep: string): (r: string)
    ensures |parts| == 0 ==> r == ""
    ensures |parts| >= 1 ==> parts[0] <= r
    ensures |parts| >= 2 ==> parts[0] + sep <= r
    decreases |parts|
  {
    if |parts| == 0 then ""
    else if |parts| == 1 then parts[0]
    else parts[0] + sep + Join(parts[1..], sep)
  }

  /** Number of occurrences of `c` in `s`. */
  function Count(s: string, c: char): nat {
    if s == [] then 0 else (if s[0] == c then 1 else 0) + Count(s[1..], c)
  }

  predicate NoSeparator(parts: seq<string>, sep: char) {
    forall i :: 0 <= i < |parts| ==> sep !in parts[i]
  }

  /** Splitting yields one more piece than there are separators. */
  lemma {:induction false} SplitLength(s: string, sep: char)
    ensures |Split(s, sep)| == Count(s, sep) + 1
    decreases |s|
  {
    if s != [] {
      SplitLength(s[1..], sep);
    }
  }

  lemma {:induction false} SplitNoSeparator(p: string, sep: char)
    requires sep !in p
    ensures Split(p, sep) == [p]
    decreases |p|
  {
    if p != [] {
      SplitNoSeparator(p[1..], sep);
      assert [p[0]] + p[1..] == p;
    }
  }

  /** A piece free of the separator followed by the separator is split off whole. */
  lemma {:induction false} SplitPrefix(p: string, sep: char, rest: string)
    requires sep !in p
    ensures Split(p + [sep] + rest, sep) == [p] + Split(rest, sep)
    decreases |p|
  {
    var s := p + [sep] + rest;
    if p == [] {
      assert s[1..] == rest;
    } else {
      assert s[1..] == p[1..] + [sep] + rest;
      SplitPrefix(p[1..], sep, rest);
      assert [p[0]] + p[1..] == p;
    }
  }

  /** Splitting a joined list gives the list back when no piece holds the
      separator; the empty list is the exception, since `[].join(sep)` is ""
      and "".split(sep) is [""]. */
  lemma {:induction false} SplitJoin(parts: seq<string>, sep: char)
    requires |parts| >= 1
    requires NoSeparator(parts, sep)
    ensures Split(Join(parts, [sep]), sep) == parts
    decreases |parts|
  {
    if |parts| == 1 {
      SplitNoSeparator(parts[0], sep);
    } else {
      SplitJoin(parts[1..], sep);
      SplitPrefix(parts[0], sep, Join(parts[1..], [sep]));
      assert [parts[0]] + parts[1..] == parts;
    }
  }

  lemma JoinCons(c: char, x: string, tail: seq<string>, sep: string)
    ensures Join([[c] + x] + tail, sep) == [c] + Join([x] + tail, sep)
  {
    var l := [[c] + x] + tail;
    var r := [x] + tail;
    if |tail| > 0 {
      assert l[1..] == tail && r[1..] == tail;
    }
  }

  /** Joining the pieces of a split gives the text back. */
  lemma {:induction false} JoinSplit(s: string, sep: char)
    ensures Join(Split(s, sep), [sep]) == s
    decreases |s|
  {
    if s != [] {
      var rest := Split(s[1..], sep);
      JoinSplit(s[1..], sep);
      if s[0] == sep {
        assert ([""] + rest)[1..] == rest;
      } else {
        JoinCons(s[0], rest[0], rest[1..], [sep]);
        assert [rest[0]] + rest[1..] == rest;
      }
      assert [s[0]] + s[1..] == s;
    }
  }

  /** `s.trimStart()`. */
  function TrimStart(s: string): (r: string)
    ensures |r| <= |s|
    ensures r != [] ==> !IsWhitespace(r[0])
    ensures r == [] <==> forall i :: 0 <= i < |s| ==> IsWhitespace(s[i])
    decreases |s|
  {
    if s != [] && IsWhitespace(s[0]) then TrimStart(s[1..]) else s
  }

  /** `s.trimEnd()`. */
  function TrimEnd(s: string): (r: string)
    ensures |r| <= |s|
    ensures r != [] ==> !IsWhitespace(r[|r| - 1])
    ensures r == [] <==> forall i :: 0 <= i < |s| ==> IsWhitespace(s[i])
    decreases |s|
  {
    if s != [] && IsWhitespace(s[|s| - 1]) then TrimEnd(s[..|s| - 1]) else s
  }

  /** `s.trim()`. */
  function Trim(s: string): (r: string)
    ensures |r| <= |s|
    ensures r == [] <==> forall i :: 0 <= i < |s| ==> IsWhitespace(s[i])
  {
    TrimEnd(TrimStart(s))
  }

  /** Neither end of `s` is whitespace. */
  predicate IsTrimmed(s: string) {
    s == [] || (!IsWhitespace(s[0]) && !IsWhitespace(s[|s| - 1]))
  }

  lemma {:induction false} TrimStartSuffix(s: string)
    ensures exists k :: 0 <= k <= |s| && TrimStart(s) == s[k..]
    ensures TrimStart(s) != [] ==> !IsWhitespace(TrimStart(s)[0])
    decreases |s|
  {
    if s != [] && IsWhitespace(s[0]) {
      TrimStartSuffix(s[1..]);
      var k :| 0 <= k <= |s[1..]| && TrimStart(s[1..]) == s[1..][k..];
      assert TrimStart(s) == s[k + 1..];
    } else {
      assert TrimStart(s) == s[0..];
    }
  }

  lemma {:induction false} TrimEndPrefix(s: string)
    ensures exists k :: 0 <= k <= |s| && TrimEnd(s) == s[..k]
    ensures TrimEnd(s) != [] ==> !IsWhitespace(TrimEnd(s)[|TrimEnd(s)| - 1])
    decreases |s|
  {
    if s != [] && IsWhitespace(s[|s| - 1]) {
      TrimEndPrefix(s[..|s| - 1]);
      var k :| 0 <= k <= |s| - 1 && TrimEnd(s[..|s| - 1]) == s[..|s| - 1][..k];
      assert TrimEnd(s) == s[..k];
    } else {
      assert TrimEnd(s) == s[..|s|];
    }
  }

  /** Whatever `trim` returns has no whitespace at either end. */
  lemma TrimIsTrimmed(s: string)
    ensures IsTrimmed(Trim(s))
  {
    var t := TrimStart(s);
    TrimStartSuffix(s);
    TrimEndPrefix(t);
    var k :| 0 <= k <= |t| && TrimEnd(t) == t[..k];
    if Trim(s) != [] {
      assert Trim(s)[0] == t[0];
    }
  }

  lemma {:induction false} TrimStartLeadingSpace(w: string, t: string)
    requires forall i :: 0 <= i < |w| ==> IsWhitespace(w[i])
    requires IsTrimmed(t)
    ensures TrimStart(w + t) == t
    decreases |w|
  {
    if w != [] {
      assert (w + t)[1..] == w[1..] + t;
      TrimStartLeadingSpace(w[1..], t);
    } else {
      assert w + t == t;
    }
  }

  lemma TrimEndOfTrimmed(t: string)
    requires IsTrimmed(t)
    ensures TrimEnd(t) == t
  {
  }

  /** Trimming removes exactly the whitespace put in front of a trimmed text,
      and leaves a trimmed text alone. */
  lemma TrimLeadingSpace(w: string, t: string)
    requires forall i :: 0 <= i < |w| ==> IsWhitespace(w[i])
    requires IsTrimmed(t)
    ensures Trim(w + t) == t
  {
    TrimStartLeadingSpace(w, t);
    TrimEndOfTrimmed(t);
  }

  /** `c.toLowerCase()` on the ASCII range. */
  function LowerChar(c: char): char {
    if 'A' <= c <= 'Z' then (c as int + 32) as char else c
  }

  /** `s.toLowerCase()`, letters A-Z only. */
  function ToLower(s: string): (r: string)
    ensures |r| == |s|
    ensures forall i :: 0 <= i < |s| ==> r[i] == LowerChar(s[i])
  {
    seq(|s|, i requires 0 <= i < |s| => LowerChar(s[i]))
  }

  /** `hay.includes(needle)`. */
  function Contains(hay: string, needle: string): (r: bool)
    ensures needle <= hay ==> r
    ensures r ==> |needle| <= |hay|
    decreases |hay|
  {
    if needle <= hay then true
    else if hay == [] then false
    else Contains(hay[1..], needle)
  }

  /** `includes` holds exactly when the needle occurs at some offset. */
  lemma {:induction false} ContainsOccurs(hay: string, needle: string)
    ensures Contains(hay, needle) <==> exists i :: 0 <= i <= |hay| && needle <= hay[i..]
    decreases |hay|
  {
    if needle <= hay {
      assert needle <= hay[0..];
    } else if hay == [] {
    } else {
      ContainsOccurs(hay[1..], needle);
      if exists i :: 0 <= i <= |hay| && needle <= hay[i..] {
        var i :| 0 <= i <= |hay| && needle <= hay[i..];
        assert i != 0;
        assert hay[1..][i - 1..] == hay[i..];
      }
      if Contains(hay[1..], needle) {
        var i :| 0 <= i <= |hay[1..]| && needle <= hay[1..][i..];
        assert hay[1..][i..] == hay[i + 1..];
      }
    }
  }

  /** The empty string is included in every string. */
  lemma ContainsEmpty(hay: string)
    ensures Contains(hay, "")
  {
  }
}

=== FILE: use_components.dfy ===
/** The `useComponents` hook: the client's list of components and its
    drag-and-drop reorder. */
module UseComponents {
  import opened Common
  import opened ComponentTypes
  import opened ComponentOrdering

  class ComponentsHook {
    /** The `components` state of the hook. */
    var components: seq<Component>

    constructor ()
      ensures components == []
    {
      components := [];
    }

    /** `reorderComponents`: nothing happens without a destination; otherwise
        the list becomes the moved-and-renumbered list and the request sent
        to the server holds its `(_id, order)` pairs in display order. */
    method ReorderComponents(result: DropResult) returns (request: Option<seq<OrderUpdate>>)
      requires result.source < |components|
      requires result.destination.Some? ==> result.destination.value < |components|
      modifies this
      ensures result.destination.None? ==> components == old(components) && request == None
      ensures result.destination.Some? ==>
        && components == Renumber(Move(old(components), result.source, result.destination.value))
        && components[result.destination.value] == old(components)[result.source].(order := result.destination.value)
        && request == Some(Payload(components))
    {
      if result.destination.None? {
        return None;
      }
      var updatedItems := MoveAndRenumber(components, result.source, result.destination.value);
      components := updatedItems;
      request := Some(Payload(updatedItems));
    }
  }
}
